=== FILE: README.md ===
# smart-rent backend core in Dafny

A model of the decision logic of the smart-rent Express/Mongoose backend.
It covers the listings marketplace where landlords publish flats and
tenants browse them. The model includes:

- the listing router: the public query, single create, CSV bulk import and delete by id;
- the Mongoose schema those listings pass through;
- the JWT middleware that guards the mutations;
- signup and login;
- the landlord document upload route and the multer policy in front of it.

Every handler is a pure function from the request and the collection it reads to the
response `(status, body)` it sends and, where it writes, the collection it leaves behind.
Collections are sequences in insertion order with a counter for fresh ids.

The modules follow the source files:

| module | file | models |
|---|---|---|
| `Base`, `Http` | base.dfy | `Option`, `Result`, status codes, `(status, body)` |
| `JsStrings` | js_strings.dfy | `String#trim`, `split(" ")`, `String(n)`, `Number(s)`, case-insensitive search |
| `JsValues` | js_values.dfy | request body values, truthiness, `??`, `String(x)`, `Number(x)` |
| `ListingSchema` | listing_schema.dfy | `ListingSchema` of clientserver/src/models/listing.ts |
| `ListingQuery` | listing_query.dfy | the filter, sort and limit of `GET /api/listings` |
| `ListingRoutes` | listing_routes.dfy | the handlers of clientserver/src/routes/listing.ts |
| `AuthMiddleware` | auth_middleware.dfy | `authenticateToken`, `requireLandlord` |
| `Users` | users.dfy | the user collection the auth and upload routes share |
| `AuthRoutes` | auth_routes.dfy | `/signup`, `/login` of clientserver/src/routes/auth.ts |
| `UploadPolicy` | upload_policy.dfy | clientserver/utils/multerConfig.ts and `upload.array("documents", 5)` |
| `UploadRoute` | upload_route.dfy | the `/upload-documents` handler in clientserver/src/models/user.ts |

Foreign calls are parameters of the functions that make them:

- `jwt.verify(token, key)` is `verify`; `jwt.sign(payload, key)` is `sign`;
- `process.env.JWT_SECRET` is `startup` when the auth router is loaded and `secret` when a request is verified;
- the password hashing of the user model is `hash`; `comparePassword` is `compare`;
- `Date.now()` is `now` for listings and tokens, and `receivedAt` for each uploaded file.

## Model

| member | source | states |
|---|---|---|
| `JsStrings.TrimFacts` | clientserver/src/models/listing.ts:5 | a trimmed title has no whitespace at either end and is no longer than before |
| `JsStrings.TrimCharacterisation` | clientserver/src/models/listing.ts:5 | trimming removes exactly the surrounding whitespace: blanks put around a string with non-blank ends are all that is removed |
| `JsStrings.TrimIdempotent` | clientserver/src/models/listing.ts:5 | trimming a stored title again changes nothing |
| `JsStrings.Split` | clientserver/src/middleware/authMiddleware.ts:13 | `split(" ")` yields at least one field, no field holds the separator, and joining the fields with it gives the header back |
| `JsStrings.SplitJoin` | clientserver/src/middleware/authMiddleware.ts:13 | splitting space-joined words gives the words back, so the token is recovered from "Bearer <token>" |
| `JsStrings.NatToStringFacts` | clientserver/utils/multerConfig.ts:12 | the decimal form of a timestamp is a non-empty run of digits, one digit exactly for values below ten |
| `JsStrings.ParseFormatRoundTrip` | clientserver/src/routes/listing.ts:89 | `Number(String(n)) == n` for every integer |
| `JsStrings.IntToStringInjective` | clientserver/utils/multerConfig.ts:12 | different timestamps have different decimal forms |
| `JsValues.ToStr` | clientserver/src/routes/listing.ts:85-86 | `String(v)` is empty only for the empty string, so a missing field becomes non-empty text |
| `JsValues.NumberOfFormattedNumber` | clientserver/src/routes/listing.ts:89 | a CSV cell holding a formatted number converts back to that number |
| `ListingSchema.FirstFailure` | clientserver/src/models/listing.ts:5-15 | the schema names a failing path exactly when the document is not admissible: a missing or blank title, a missing or empty city, a size missing, NaN or below 5, a NaN room count, a cold rent missing, NaN or negative, or a NaN or negative warm rent |
| `ListingSchema.Build` | clientserver/src/models/listing.ts:3-21 | every record the schema stores is well formed: trimmed non-empty title, non-empty city, size at least 5, rents not negative, both timestamps set to the creation time |
| `ListingSchema.Validate` | clientserver/src/models/listing.ts:3-21 | validation succeeds exactly for admissible documents and then stores the built record; otherwise it fails with one of the six validated paths |
| `ListingSchema.SchemaStoresDraft` | clientserver/src/models/listing.ts:5-18 | a stored record keeps the supplied fields with the title trimmed and takes the defaults district, address and url "", rooms 1, furnished false, source "manual"; a warm rent appears only if one was supplied |
| `ListingSchema.SchemaBounds` | clientserver/src/models/listing.ts:10-15 | a size below 5 or a negative cold or warm rent is refused whatever else the document says; a warm rent below the cold rent is accepted |
| `ListingQuery.Select` | clientserver/src/routes/listing.ts:36 | `find(filter)` returns only matching listings, each at most as often as it is stored, and every matching listing |
| `ListingQuery.InsertByAge` | clientserver/src/routes/listing.ts:36 | inserting into a newest-first sequence keeps it newest first and adds exactly the one listing |
| `ListingQuery.SortNewest` | clientserver/src/routes/listing.ts:36 | `sort({ createdAt: -1 })` is a permutation ordered by creation time, newest first |
| `ListingQuery.QueryFailsOnUnreadableBound` | clientserver/src/routes/listing.ts:27-39 | the query fails (the 500 of the catch) exactly when a supplied rent or size bound is not a number |
| `ListingQuery.FilterMeaning` | clientserver/src/routes/listing.ts:25-34 | a listing matches the built filter exactly when it satisfies every supplied parameter: city equal, inclusive bounds, the furnished flag, case-insensitive title search |
| `ListingQuery.SameSupplied` | clientserver/src/routes/listing.ts:25-34 | the filter depends only on which parameters are supplied and their values, and on `furnished` as given |
| `ListingQuery.EmptyParameterIgnored` | clientserver/src/routes/listing.ts:26-34 | an empty city, bound or search parameter gives the same reply as an absent one |
| `ListingQuery.BuildFilter` | clientserver/src/routes/listing.ts:25-34 | the filter cannot be built exactly when a supplied rent or size bound is not a number; it sets a city or title condition exactly when that parameter is supplied |
| `ListingQuery.Query` | clientserver/src/routes/listing.ts:25-37 | the query fails exactly when the filter cannot be built, and otherwise returns at most 100 listings, each at most as often as stored |
| `ListingQuery.TakeNewest` | clientserver/src/routes/listing.ts:36 | `limit(n)` on a newest-first sequence keeps it ordered, takes at most `n`, and omits nothing newer than what it keeps |
| `ListingQuery.QueryResult` | clientserver/src/routes/listing.ts:25-37 | the reply holds listings of the store, each at most as often as stored, admitted by the parameters, newest first, at most 100 long, complete when shorter than 100, and no omitted match is newer than any kept one |
| `ListingQuery.FurnishedParameter` | clientserver/src/routes/listing.ts:33 | a present `furnished` selects furnished listings exactly when it is "true"; any other value, "" included, selects unfurnished ones |
| `ListingRoutes.GetListings` | clientserver/src/routes/listing.ts:13-41 | `GET /` answers 500 "Failed to fetch listings" exactly for an unreadable bound, and otherwise 200 with at most 100 stored listings |
| `ListingRoutes.Normalise` | clientserver/src/routes/listing.ts:55-67 | `??` defaults replace only absent or null fields: a supplied number of rooms, `furnished` flag or source is kept as sent; `rent_warm` is set exactly when supplied non-null |
| `ListingRoutes.CreateListing` | clientserver/src/routes/listing.ts:47-73 | single create answers 400, 500 or 201; only a 201 writes, appending exactly the returned well-formed document under the fresh id |
| `ListingRoutes.CreateKeepsSuppliedValues` | clientserver/src/routes/listing.ts:58-66 | a supplied number of rooms, `furnished` flag, district, address, source or url is stored as sent, `0`, `false` and `""` included |
| `ListingRoutes.CreateRequiresFields` | clientserver/src/routes/listing.ts:51-53 | single create answers 400, storing nothing, exactly when title or city is falsy or size_m2 or rent_cold is null or absent |
| `ListingRoutes.CreateSchemaRejectionIs500` | clientserver/src/routes/listing.ts:55-71 | with the required fields present but a document the schema refuses, the answer is 500, not 400 |
| `ListingRoutes.CreateStoresDefaults` | clientserver/src/routes/listing.ts:55-69 | a 201 appends exactly the returned document with a fresh id, the clock's time and the route's defaults; rent_warm is absent unless supplied non-null |
| `ListingRoutes.InsertPreservesValid` | clientserver/src/models/listing.ts:3-21 | appending a well-formed record under the next id keeps ids unique and every record well formed |
| `ListingRoutes.CreatePreservesValid` | clientserver/src/routes/listing.ts:47-73 | every store left by single create is valid |
| `ListingRoutes.NormaliseRows` | clientserver/src/routes/listing.ts:84-96 | the conversion yields one document per array element |
| `ListingRoutes.NormaliseRowsAt` | clientserver/src/routes/listing.ts:84-96 | document `k` is the conversion of element `k`, with default source "csv" |
| `ListingRoutes.CountAdmissible` | clientserver/src/routes/listing.ts:104-105 | no more documents are accepted than the batch holds |
| `ListingRoutes.AcceptedCount` | clientserver/src/routes/listing.ts:104-105 | `insertMany` adds exactly as many records as the batch has documents the schema accepts |
| `ListingRoutes.CountAll` | clientserver/src/routes/listing.ts:104-105 | when every document passes the schema, all of them count |
| `ListingRoutes.AdmissibleDocs` | clientserver/src/routes/listing.ts:104 | the documents `ordered: false` lets through: exactly those of the batch the schema accepts, all of which pass it |
| `ListingRoutes.AdmissibleDocsAll` | clientserver/src/routes/listing.ts:104 | a batch the schema accepts in full loses no document |
| `ListingRoutes.AcceptedSkipsRefused` | clientserver/src/routes/listing.ts:104 | a refused document neither stops the batch nor uses up an id: the records added are those for the batch with the refused documents taken out |
| `ListingRoutes.AcceptedInOrder` | clientserver/src/routes/listing.ts:104 | record `k` added is the `k`-th accepted document under id `next + k`, in batch order |
| `ListingRoutes.InsertMany` | clientserver/src/routes/listing.ts:104 | `insertMany` keeps the stored records, then adds the accepted documents in batch order, the `k`-th under id `next + k`, and moves the id counter past them |
| `ListingRoutes.AcceptedStamps` | clientserver/src/routes/listing.ts:104 | the added records are well formed and carry consecutive fresh ids |
| `ListingRoutes.AcceptedAt` | clientserver/src/routes/listing.ts:104 | when every document passes the schema, record `k` added is document `k` under id `next + k` |
| `ListingRoutes.BulkNeedsNonEmptyArray` | clientserver/src/routes/listing.ts:81-82 | a body that is not an array, or an empty one, gets 400 "Expected an array of listings" with the store unchanged |
| `ListingRoutes.BulkNullItemIs500` | clientserver/src/routes/listing.ts:84-107 | a null element makes the conversion throw: 500, nothing stored |
| `ListingRoutes.BulkAllOrNothing` | clientserver/src/routes/listing.ts:98-102 | one row with an empty title or city, or a NaN size or cold rent, rejects the whole batch with 400 before anything is stored |
| `ListingRoutes.BulkReachesInsertMany` | clientserver/src/routes/listing.ts:104-105 | a batch past the checks is answered 201 and the store becomes the old rows followed by the accepted ones |
| `ListingRoutes.BulkCountsAccepted` | clientserver/src/routes/listing.ts:104-105 | past the checks, `inserted` is the number of rows the schema accepts; earlier records are kept, and after them the accepted rows in order (refused rows skipped), the `k`-th under id `next + k` |
| `ListingRoutes.AppendAccepted` | clientserver/src/routes/listing.ts:104 | appending the added records keeps the old ones and puts the `k`-th accepted document at offset `k` |
| `ListingRoutes.BulkRowAt` | clientserver/src/routes/listing.ts:84-104 | row `k` of an all-valid batch is stored under id `next + k`, source "csv" unless it names one |
| `ListingRoutes.BulkInsertsEveryRow` | clientserver/src/routes/listing.ts:98-105 | when every row passes the check and the schema, all rows are stored in order and `inserted` equals the number of rows |
| `ListingRoutes.BulkMissingTitleStoredAsUndefined` | clientserver/src/routes/listing.ts:85-99 | a row without a title is not refused for it: it is stored with the title "undefined" |
| `ListingRoutes.UntitledRow` | clientserver/src/routes/listing.ts:85 | an untitled element that the schema accepts is built with title "undefined" |
| `ListingRoutes.UntitledBuild` | clientserver/src/models/listing.ts:5 | the title "undefined" survives trimming unchanged |
| `ListingRoutes.MissingTitleIsUndefined` | clientserver/src/routes/listing.ts:85-99 | a missing title converts to "undefined", so the row passes the check exactly when its city, size and cold rent do |
| `ListingRoutes.BulkCsvFalseIsFurnished` | clientserver/src/routes/listing.ts:91 | `Boolean("false")` is true: a CSV cell "false" stores the flat as furnished |
| `ListingRoutes.InsertManyPreservesValid` | clientserver/src/routes/listing.ts:104 | storing a batch keeps ids unique and every record well formed |
| `ListingRoutes.BulkPreservesValid` | clientserver/src/routes/listing.ts:79-109 | every store left by bulk create is valid |
| `ListingRoutes.BulkCreate` | clientserver/src/routes/listing.ts:79-109 | bulk create answers 400, 500 or 201; only a 201 writes, keeping the old records and adding as many as `inserted` reports, at most one per element |
| `ListingRoutes.IndexOfId` | clientserver/src/routes/listing.ts:118 | `findByIdAndDelete` finds the first record with the id, or reports that none has it |
| `ListingRoutes.DeleteListing` | clientserver/src/routes/listing.ts:115-128 | delete answers 500, 404 or 200; 200 exactly for a well-formed id some record holds, and then exactly one record is removed; otherwise nothing changes |
| `ListingRoutes.DeleteAbsent` | clientserver/src/routes/listing.ts:118-122 | deleting an id that is not stored answers 404 and changes nothing |
| `ListingRoutes.DeletePresent` | clientserver/src/routes/listing.ts:118-124 | deleting a stored id answers 200 echoing the id and removes exactly that record, the others kept in order |
| `ListingRoutes.DeleteTwice` | clientserver/src/routes/listing.ts:118-124 | deleting the same id twice answers 200, then 404 |
| `ListingRoutes.DeletePreservesValid` | clientserver/src/routes/listing.ts:115-128 | every store left by delete is valid |
| `ListingRoutes.GateProtectsStore` | clientserver/src/routes/listing.ts:47-115 | a request the gate stops gets 401 or 403 and leaves the store unchanged, whichever mutation it targets |
| `AuthMiddleware.TokenIsSecondField` | clientserver/src/middleware/authMiddleware.ts:13 | the token is the second space-separated field of the header, whatever the first one says |
| `AuthMiddleware.HeaderToken` | clientserver/src/middleware/authMiddleware.ts:13 | a token is read only from a header that holds a space, and never holds a space itself |
| `AuthMiddleware.AuthenticateToken` | clientserver/src/middleware/authMiddleware.ts:10-23 | `authenticateToken` stops with 401 or 403, or calls `next` with `req.user` set and the header unchanged, which needs a non-empty secret |
| `AuthMiddleware.AuthenticateOutcomes` | clientserver/src/middleware/authMiddleware.ts:10-23 | 401 exactly when there is no non-empty second field; otherwise 403 exactly when `JWT_SECRET` is unset or empty or the token fails verification under it; otherwise `next` with `req.user` set to the decoded claims and nothing else changed |
| `AuthMiddleware.RequireLandlordOutcomes` | clientserver/src/middleware/authMiddleware.ts:26-31 | `next` with the request unchanged exactly when there is a user with role "landlord"; otherwise 403 |
| `AuthMiddleware.RequireLandlord` | clientserver/src/middleware/authMiddleware.ts:26-31 | `requireLandlord` lets a request on only when its user is a landlord, and otherwise answers 403 |
| `AuthMiddleware.BearerGate` | clientserver/src/middleware/authMiddleware.ts:10-31 | "Bearer <token>" that verifies under the secret passes the gate exactly for a landlord, carrying the decoded claims; other roles get 403 |
| `AuthMiddleware.BearerRefused` | clientserver/src/middleware/authMiddleware.ts:14-22 | "Bearer <token>" is answered 403 "Invalid or expired token." whenever the secret is unset or empty or the token does not verify under it |
| `Users.FirstWhere` | clientserver/src/routes/auth.ts:16 | a lookup returns the first account that satisfies the condition, or reports that none does |
| `Users.FindUniqueEmail` | clientserver/src/routes/auth.ts:16-19 | with unique emails, the email lookup finds exactly the account that holds the email |
| `Users.FindUniqueId` | clientserver/src/models/user.ts:18 | with unique ids, `findById` finds exactly the account with the id |
| `Users.AddPreservesValid` | clientserver/src/routes/auth.ts:16-21 | creating an account with an untaken email keeps emails and ids unique, and the new account is what the email now finds |
| `Users.ReplacePreservesValid` | clientserver/src/models/user.ts:28-30 | saving an account with the same id and email keeps the collection valid |
| `AuthRoutes.SigningKey` | clientserver/src/routes/auth.ts:6 | the router's signing key is never empty: `JWT_SECRET` when it is set and non-empty at load time, the fallback "your_jwt_secret_here" when it is unset or empty |
| `AuthRoutes.Signup` | clientserver/src/routes/auth.ts:9-30 | signup answers 400, 500 or 201; only a 201 writes, appending one account whose name and role the reply repeats |
| `AuthRoutes.Login` | clientserver/src/routes/auth.ts:33-50 | login answers 200, 401 or 500 and writes nothing; a 200 carries a session with the name and role of a stored account |
| `AuthRoutes.StoredRole` | clientserver/src/routes/auth.ts:21 | the stored role is always "user" or "landlord", "user" when none is given |
| `AuthRoutes.SignupOutcomes` | clientserver/src/routes/auth.ts:9-30 | 400 "All fields are required" exactly when name, email or password is falsy; else 400 "User already exists" exactly when the email is taken; else 500 exactly for a role outside the two; else 201; only a 201 changes the store |
| `AuthRoutes.SignupAddsOne` | clientserver/src/routes/auth.ts:21-26 | a 201 appends exactly one account holding the hash and not the password, and answers a token for its id and role valid for seven days, with only name and role |
| `AuthRoutes.SignupPreservesValid` | clientserver/src/routes/auth.ts:16-21 | signup keeps emails and ids unique |
| `AuthRoutes.SignupTakenEmail` | clientserver/src/routes/auth.ts:16-18 | signing up with a stored email answers 400 "User already exists" and leaves the store as it was |
| `AuthRoutes.LoginOutcomes` | clientserver/src/routes/auth.ts:33-50 | 200 exactly when the email names an account whose hash the password matches, with a seven-day token for that id and role; 500 when the comparison throws; otherwise 401 "Invalid credentials" |
| `AuthRoutes.LoginUniformFailure` | clientserver/src/routes/auth.ts:36-40 | an unknown email and a wrong password get the identical 401 answer |
| `AuthRoutes.SignupThenLogin` | clientserver/src/routes/auth.ts:21-46 | after a successful signup, logging in with the same email and password answers 200 for the new account's id, name and role |
| `AuthRoutes.LoginTokenGate` | clientserver/src/routes/auth.ts:42-46 | when the middleware's secret equals the router's signing key, a token issued at login passes the landlord gate exactly when the account is a landlord's, and `req.user` then carries its id and role |
| `AuthRoutes.LoginTokenRefused` | clientserver/src/middleware/authMiddleware.ts:17-22 | when the middleware's secret is unset, empty, or differs from the router's signing key, every login token is answered 403, landlord or not |
| `AuthRoutes.DotEnvSecretRefusesLoginTokens` | clientserver/src/index.ts:6-9 | with the secret only in `.env`, the router (loaded before `dotenv.config()`) signs with the fallback key and the middleware verifies with the `.env` secret, so every login token gets 403 |
| `UploadPolicy.NamedParts` | clientserver/src/models/user.ts:13 | the parts handed to the storage are exactly the request's parts that carry a file name |
| `UploadPolicy.NamedPartsAppend` | clientserver/src/models/user.ts:13 | dropping unnamed parts keeps the arrival order: the named parts of two stretches of a request are those of the first, then those of the second |
| `UploadPolicy.SaveAll` | clientserver/utils/multerConfig.ts:7-15 | one file is written per accepted part |
| `UploadPolicy.SaveAllAt` | clientserver/utils/multerConfig.ts:7-15 | the `i`-th written file belongs to the `i`-th accepted part |
| `UploadPolicy.FileFilter` | clientserver/utils/multerConfig.ts:19-26 | the filter accepts exactly PDF, JPEG and PNG, and refuses every other type with "Invalid file type" |
| `UploadPolicy.Filename` | clientserver/utils/multerConfig.ts:11-13 | a stored name is a non-empty run of digits, one dash, then the client's file name |
| `UploadPolicy.ReceiveFrom` | clientserver/utils/multerConfig.ts:17-27 | with room for `n` files, no more than `n` are written, and a refusal is "Unexpected field" or "Invalid file type" |
| `UploadPolicy.ReceiveFromMeaning` | clientserver/utils/multerConfig.ts:17-27 | with room for `n` files, the parts are accepted exactly when every named part is a "documents" file of an allowed type and at most `n` are named; they are then all written in order |
| `UploadPolicy.ReceiveMeaning` | clientserver/utils/multerConfig.ts:17-27 | a request's files are accepted exactly when all are PDF, JPEG or PNG under "documents" and at most five; the accepted files are the parts in order; a refusal is "Unexpected field" or "Invalid file type" |
| `UploadPolicy.SingleFile` | clientserver/utils/multerConfig.ts:19-26 | one file is written exactly when its type is on the allow-list, and is otherwise refused with "Invalid file type" |
| `UploadPolicy.ReceiveAdmitted` | clientserver/src/models/user.ts:13 | files of allowed types are all written if they fit the limit; otherwise the first file over it is refused with "Unexpected field" |
| `UploadPolicy.SixthFileRefused` | clientserver/src/models/user.ts:13 | a sixth file is refused even when every file has an allowed type |
| `UploadPolicy.SavedFileShape` | clientserver/utils/multerConfig.ts:8-14 | a file is stored at "uploads/" followed by its name, and the name is the timestamp, a dash and the client's file name |
| `UploadPolicy.FilenameInjective` | clientserver/utils/multerConfig.ts:12 | the timestamp and the client's file name can both be recovered from a stored name |
| `UploadRoute.UploadDocuments` | clientserver/src/models/user.ts:13-36 | the upload answers 500, 404, 403 or 200; at most five files stay on disk, none after a 500; a request that is not multipart never gets 200 and writes no file; only a 200 writes, reporting exactly the files left on disk |
| `UploadRoute.UploadOutcomes` | clientserver/src/models/user.ts:13-36 | 500 with nothing written when multer refuses; else 404 for an unknown id and 403 for a non-landlord, the store unchanged but the files left on disk; else 500 "Upload failed" for a request that is not multipart (no `req.files`) and 200 for one that is; only a 200 changes the store |
| `UploadRoute.UploadAppends` | clientserver/src/models/user.ts:25-32 | a 200 changes only the uploader's account: documents become the old list followed by the new paths, isVerified becomes false; the reply lists exactly the new paths under "uploads/", at most five |
| `UploadRoute.UploadNeverVerifies` | clientserver/src/models/user.ts:29 | no account is verified after an upload that was not verified before |
| `UploadRoute.UploadPreservesValid` | clientserver/src/models/user.ts:28-30 | an upload keeps emails and ids unique |
| `UploadRoute.UploadTwice` | clientserver/src/models/user.ts:28 | two successful uploads keep both batches, the first before the second |

## Where the model follows the code

- **Invalid tokens get 403.** Only a missing or empty token gets 401 (authMiddleware.ts:14). A token `jwt.verify` rejects gets 403 "Invalid or expired token." (authMiddleware.ts:20-22).
- **Two readings of the secret.** The auth router reads `JWT_SECRET` once, when it is loaded, and falls back to "your_jwt_secret_here" (auth.ts:6). index.ts loads the router (index.ts:7) before `dotenv.config()` runs (index.ts:9). The middleware reads `JWT_SECRET` on every request (authMiddleware.ts:17). With the secret kept only in `.env`, tokens are signed with the fallback key and verified with the `.env` secret. With no secret at all, `jwt.verify` gets no key and throws. Either way every login token is answered 403 by the landlord gate (`AuthRoutes.LoginTokenRefused`, `AuthRoutes.DotEnvSecretRefusesLoginTokens`). `AuthRoutes.LoginTokenGate` states the intended behaviour for a deployment where both read the same non-empty secret.
- **Bulk import rejects the whole batch.** One row that fails the route's own check (an empty title or city, or a NaN size or cold rent) rejects the whole batch with 400 before anything is stored (listing.ts:98-102). Only rows that pass this check but fail the schema are skipped by `insertMany(..., { ordered: false })`. `inserted` counts the rows actually stored.
- **"undefined" titles.** In bulk import, `String(b.title)` turns a missing title into the text "undefined", which passes every check.
- **Furnished "false".** `Boolean("false")` is true, so a CSV cell "false" stores the flat as furnished. Both this and the "undefined" title are proved about the model as the code has them.
- **Schema errors in single create.** A document that reaches `Listing.create` with, for example, a size below 5 is answered 500 by the `catch`, not 400.
- **Bad query bounds.** A supplied rent or size bound that `Number` reads as NaN makes Mongoose's cast fail when the query runs. The `catch` answers 500.
- **Bad delete ids.** A delete id that is not an ObjectId makes `findByIdAndDelete` throw: 500.
- **Requests that are not multipart.** multer passes them on without `req.files`. The account checks still run first, so an unknown id gets 404 and a non-landlord gets 403. For a landlord, `uploadedFiles.map` throws and the `catch` answers 500 "Upload failed" (user.ts:25-26, 33-35). An empty multipart request, by contrast, gets 200 with no files and resets `isVerified`.
- **Files outlive refusals.** The upload route writes the files before it looks up the account. A 404 or 403 therefore leaves the files on disk.
- **Multer errors.** Refusals by multer reach Express's default error handler, which answers 500 with an HTML page, not a JSON `{ message }`. That page shows the error's message and stack in development and only "Internal Server Error" in production. The model's `Message(e)` stands for that page.
- **Upload authentication.** The upload route imports its authentication from `middleware/auth`, which is not part of this model. The handler receives the `req.user` it sets.

## Left out

- I/O: Express, MongoDB and disk I/O, server start-up and the database connection in clientserver/src/index.ts. The stores are in-memory sequences and responses are `(status, body)` values.
- Cryptography and the clock: `jwt.sign`, `jwt.verify`, bcrypt hashing and `comparePassword` are function parameters. Properties the model needs from them are stated as preconditions of the lemmas that use them: a password matches its own hash; a signed token is one word; it verifies to its claims under the key it was signed with, and not under another key.
- `AuthRoutes.LoginTokenGate`: holds only when the middleware's secret equals the router's signing key. The code as written does not ensure this (see "Two readings of the secret"); `AuthRoutes.LoginTokenRefused` covers the other case.
- The user schema: the User model file is not among the sources. Its fields, role enum ("user" or "landlord", default "user") and hashing save hook are assumptions of this model. Email normalisation (case, whitespace) is not modelled.
- `AuthRoutes.StoredRole`: a role that is not one of the two is modelled as a validation failure (500). The enum check lives in the user schema, which is not part of this model. Mongoose's enum validator lets `null` through, so a body with `role: null` is most likely stored with a null role and answered 201. The model has no null role and answers 500.
- Regular expressions: the `q` parameter is a regular expression in the source. The model treats it as a case-insensitive literal substring match with ASCII case folding.
- Numbers: all numbers are integers. `Number(s)` trims whitespace and then reads an optional sign followed by decimal digits; a blank string is 0. Fractions, exponents, hex literals and "Infinity" are NaN in the model. Floating point is left out.
- Partial failure of `insertMany`: a database error after some rows are written surfaces as 500 in the source, leaving those rows stored. The model stores all accepted rows or none.
- Concurrency: two requests racing on the same email or the same listing, and the database's unique index on email.
- Paths: `path.join(destination, filename)` is modelled as concatenation, which is exact for the base names multer hands over (no directory separators).
- Multer arrival order: multer handles file parts asynchronously. The model processes them in arrival order and writes each accepted file at its `receivedAt` time.
- `UploadPolicy.ReceiveMeaning`: states that a refusal carries one of the two multer messages but not which one; that depends on which offending part arrives first.
- `JsValues.Value`: request values are primitives only. `express.json` and the query-string parser also deliver arrays and objects, which the model leaves out. Examples: `?city=a&city=b` arrives as an array, which Mongoose reads as `$in`. `?minRent=1&minRent=2` makes `Number` NaN, so 500. `?city[$ne]=x` arrives as an operator object. A title of `[]` is truthy although `String([])` is empty. Operator injection is therefore not modelled.
- `AuthRoutes.LoginOutcomes`: its condition "the email names an account" holds for the primitive emails modelled. A login body `{"email": {"$ne": null}}` makes `findOne` return the first account, which the model cannot express.
- Wiring: the source tree does not connect these pieces as given. auth.ts:2 imports `../models/user`, which is the upload router, not a User model. index.ts mounts no upload route. models/user.ts imports `../middleware/auth`, `../models/User` and `../utils/multerConfig`, and none of them resolves in this tree. The model connects each route to the component its comments name: the user collection, the JWT middleware and multerConfig.ts.
- Upload failures: the `catch` of the upload handler (user.ts:33-36) also answers 500 "Upload failed" when the database lookup or save throws. Database failures are not modelled, and `req.user.id` is always a well-formed id.
- Client code: all React client files are UI state and rendering, with no server-side behaviour.

=== FILE: auth_middleware.dfy ===
/** The Express middleware of clientserver/src/middleware/authMiddleware.ts:
    `authenticateToken` reads the bearer token from the Authorization header
    and verifies it, `requireLandlord` lets only landlords through. Token
    verification (`jwt.verify` with a key and the clock) is a parameter;
    the key is `process.env.JWT_SECRET` as the process environment holds it
    when the request arrives, which may be unset. */
module AuthMiddleware {
  import opened Base
  import opened Http
  import opened JsStrings

  const LandlordRole: string := "landlord"

  const NoTokenMessage: string := "Access denied. No token."
  const BadTokenMessage: string := "Invalid or expired token."
  const LandlordOnlyMessage: string := "Landlord access required."

  /** The decoded token payload that becomes `req.user`. */
  datatype Claims = Claims(id: nat, role: string)

  /** The parts of a request the middleware reads and writes. */
  datatype Request = Request(authorization: Option<string>, user: Option<Claims>)

  /** A middleware's decision: call `next` once with the (possibly updated)
      request, or answer with `{ error }` and stop the chain. */
  datatype Step = Next(req: Request) | Halt(response: Response<string>)

  /** `authHeader?.split(" ")[1]`: the second space-separated field of the
      header, if the header is there and has one. A token never holds a
      space, and there is one only when the header holds a space. */
  function HeaderToken(header: Option<string>): (r: Option<string>)
    ensures r.Some? ==> header.Some? && ' ' in header.value && ' ' !in r.value
  {
    match header
    case None => None
    case Some(h) =>
      var fields := Split(h, ' ');
      if |fields| >= 2 then
        SplitManyHasSeparator(h, ' ');
        Some(fields[1])
      else None
  }

  /** `authenticateToken`. `verify(token, key)` is `jwt.verify`: `None` for
      a token with a bad shape, a signature that does not match `key`, or an
      expiry in the past. `secret` is `process.env.JWT_SECRET`; when it is
      unset or empty `jwt.verify` throws for every token, which the `catch`
      answers 403 like any other verification failure. */
  function AuthenticateToken(req: Request, verify: (string, string) -> Option<Claims>, secret: Option<string>): (step: Step)
    ensures step.Halt? ==> step.response.status == Unauthorized || step.response.status == Forbidden
    ensures step.Next? ==> step.req.authorization == req.authorization && step.req.user.Some?
    ensures step.Next? ==> secret.Some? && secret.value != []
  {
    var token := HeaderToken(req.authorization);
    if token.None? || token.value == [] then Halt(Response(Unauthorized, NoTokenMessage))
    else if secret.None? || secret.value == [] then Halt(Response(Forbidden, BadTokenMessage))
    else
      match verify(token.value, secret.value)
      case None => Halt(Response(Forbidden, BadTokenMessage))
      case Some(claims) => Next(req.(user := Some(claims)))
  }

  /** `requireLandlord`: only a request whose user is a landlord goes on. */
  function RequireLandlord(req: Request): (step: Step)
    ensures step.Next? ==> req.user.Some? && req.user.value.role == LandlordRole
    ensures step.Halt? ==> step.response.status == Forbidden
  {
    if req.user.None? || req.user.value.role != LandlordRole then Halt(Response(Forbidden, LandlordOnlyMessage))
    else Next(req)
  }

  /** `authenticateToken, requireLandlord` as mounted in front of the
      listing mutations. */
  function LandlordGate(req: Request, verify: (string, string) -> Option<Claims>, secret: Option<string>): Step {
    match AuthenticateToken(req, verify, secret)
    case Halt(response) => Halt(response)
    case Next(req') => RequireLandlord(req')
  }

  /** The token is the field after the first space, whatever the scheme word
      before it says and whatever follows it after another space. */
  lemma TokenIsSecondField(fields: seq<string>)
    requires |fields| >= 2
    requires forall i :: 0 <= i < |fields| ==> ' ' !in fields[i]
    ensures HeaderToken(Some(Join(fields, ' '))) == Some(fields[1])
  {
    SplitJoin(fields, ' ');
  }

  /** The outcomes of `authenticateToken`: 401 exactly when the header is
      missing or has no non-empty second field; otherwise 403 exactly when
      the secret is unset or empty or the token fails verification under it;
      otherwise `next` with `req.user` set to the decoded claims and nothing
      else changed. */
  lemma AuthenticateOutcomes(req: Request, verify: (string, string) -> Option<Claims>, secret: Option<string>)
    ensures var token := HeaderToken(req.authorization);
      var step := AuthenticateToken(req, verify, secret);
      var keyed := secret.Some? && secret.value != [];
      && (step.Halt? && step.response.status == Unauthorized <==> token.None? || token.value == [])
      && (step.Halt? && step.response.status == Forbidden <==>
            token.Some? && token.value != [] && (!keyed || verify(token.value, secret.value).None?))
      && (step.Next? <==> token.Some? && token.value != [] && keyed && verify(token.value, secret.value).Some?)
      && (step.Next? ==> step.req == req.(user := Some(verify(token.value, secret.value).value)))
  {
  }

  /** `requireLandlord` calls `next`, with the request unchanged, exactly
      when there is a user whose role is "landlord"; otherwise it answers
      403. */
  lemma RequireLandlordOutcomes(req: Request)
    ensures RequireLandlord(req).Next? <==> req.user.Some? && req.user.value.role == LandlordRole
    ensures RequireLandlord(req).Next? ==> RequireLandlord(req).req == req
    ensures RequireLandlord(req).Halt? ==> RequireLandlord(req).response.status == Forbidden
  {
  }

  /** A request carrying "Bearer <token>" whose token verifies under the
      secret to a landlord passes the gate carrying the decoded claims; the
      same header for a user with any other role is answered 403. */
  lemma BearerGate(token: string, verify: (string, string) -> Option<Claims>, secret: string, user: Option<Claims>)
    requires token != [] && ' ' !in token
    requires secret != [] && verify(token, secret).Some?
    ensures var step := LandlordGate(Request(Some("Bearer " + token), user), verify, Some(secret));
      && (step.Next? <==> verify(token, secret).value.role == LandlordRole)
      && (step.Next? ==> step.req.user == verify(token, secret))
      && (step.Halt? ==> step.response.status == Forbidden)
  {
    var fields := ["Bearer", token];
    assert Join(fields, ' ') == "Bearer " + token by {
      assert Join(fields[1..], ' ') == token;
    }
    TokenIsSecondField(fields);
  }

  /** A well-formed "Bearer <token>" header is refused with 403, whatever
      the token, when the secret is unset or empty or when the token does
      not verify under it. */
  lemma BearerRefused(token: string, verify: (string, string) -> Option<Claims>, secret: Option<string>, user: Option<Claims>)
    requires token != [] && ' ' !in token
    requires secret.None? || secret.value == [] || verify(token, secret.value).None?
    ensures LandlordGate(Request(Some("Bearer " + token), user), verify, secret) == Halt(Response(Forbidden, BadTokenMessage))
  {
    var fields := ["Bearer", token];
    assert Join(fields, ' ') == "Bearer " + token by {
      assert Join(fields[1..], ' ') == token;
    }
    TokenIsSecondField(fields);
  }
}

=== FILE: auth_routes.dfy ===
/** The `/signup` and `/login` handlers of clientserver/src/routes/auth.ts
    over the user collection. The foreign calls are parameters: `hash` is
    the password hashing the user model applies before saving, `compare` is
    `user.comparePassword`, `sign(payload, key)` is `jwt.sign`, and `now` is
    the clock reading `jwt.sign` stamps into the token. The router reads its
    signing key once, when the module is loaded: `startup` is
    `process.env.JWT_SECRET` at that moment. The server entry point loads
    the router before it reads `.env`, so a secret kept only in `.env` is
    not yet visible then. */
module AuthRoutes {
  import opened Base
  import opened Http
  import opened JsValues
  import opened Users
  import opened AuthMiddleware

  const FieldsRequired: string := "All fields are required"
  const UserExists: string := "User already exists"
  const SignupFailed: string := "Signup failed"
  const InvalidCredentials: string := "Invalid credentials"
  const LoginFailed: string := "Login failed"

  /** The key the router signs with when `JWT_SECRET` is unset or empty. */
  const FallbackSecret: string := "your_jwt_secret_here"

  /** `process.env.JWT_SECRET || "your_jwt_secret_here"` at load time: never
      empty. */
  function SigningKey(startup: Option<string>): (key: string)
    ensures key != []
    ensures startup.Some? && startup.value != [] ==> key == startup.value
    ensures startup.None? || startup.value == [] ==> key == FallbackSecret
  {
    if startup.Some? && startup.value != [] then startup.value else FallbackSecret
  }

  /** `expiresIn: "7d"`, in seconds. */
  const TokenLifetime: nat := 7 * 24 * 60 * 60

  /** What `jwt.sign` encodes: the claims `{ id, role }` and the issue and
      expiry times it adds itself. */
  datatype Payload = Payload(id: nat, role: string, issuedAt: nat, expiresAt: nat)

  /** The JSON bodies the router sends; a session carries the token and the
      public part of the account, `{ name, role }`. */
  datatype Reply = Error(error: string) | Session(token: string, name: string, role: string)

  datatype Outcome = Outcome(response: Response<Reply>, store: Store)

  /** The token issued for an account at time `now`. */
  function Token(u: User, sign: (Payload, string) -> string, startup: Option<string>, now: nat): string {
    sign(Payload(u.id, u.role, now, now + TokenLifetime), SigningKey(startup))
  }

  /** The role `User.create` stores for the `role` field of the body: the
      default when the field is absent, the value when it names one of the
      two roles, and a validation failure (`None`) for anything else. */
  function StoredRole(role: Value): (r: Option<string>)
    ensures r.Some? ==> r.value == UserRole || r.value == LandlordRole
    ensures role.Undefined? ==> r == Some(UserRole)
    ensures role == Str(LandlordRole) ==> r == Some(LandlordRole)
  {
    match role
    case Undefined => Some(UserRole)
    case _ =>
      var s := ToStr(role);
      if s == UserRole || s == LandlordRole then Some(s) else None
  }

  /** `POST /signup`: only a 201 writes, and it appends one account whose
      name and role the reply repeats. */
  function Signup(body: Body, st: Store, hash: string -> string, sign: (Payload, string) -> string, startup: Option<string>, now: nat): (o: Outcome)
    ensures o.response.status in {BadRequest, ServerError, Created}
    ensures o.response.status != Created ==> o.store == st && o.response.body.Error?
    ensures o.response.status == Created ==>
      && |o.store.users| == |st.users| + 1
      && o.store.users[..|st.users|] == st.users
      && o.response.body.Session?
      && o.response.body.name == o.store.users[|st.users|].name
      && o.response.body.role == o.store.users[|st.users|].role
  {
    var b := Fields(body);
    var name, email, password := Get(b, "name"), Get(b, "email"), Get(b, "password");
    if !Truthy(name) || !Truthy(email) || !Truthy(password) then
      Outcome(Response(BadRequest, Error(FieldsRequired)), st)
    else if FindByEmail(st.users, ToStr(email)).Some? then
      Outcome(Response(BadRequest, Error(UserExists)), st)
    else
      match StoredRole(Get(b, "role"))
      case None => Outcome(Response(ServerError, Error(SignupFailed)), st)
      case Some(role) =>
        var st' := Add(st, ToStr(name), ToStr(email), hash(ToStr(password)), role);
        var u := st'.users[|st.users|];
        Outcome(Response(Created, Session(Token(u, sign, startup, now), u.name, u.role)), st')
  }

  /** The account `findOne({ email })` returns for the body's `email`. A
      missing or null email matches no account: every stored account has a
      string email. */
  function LoginAccount(b: map<string, Value>, st: Store): Option<nat> {
    var email := Get(b, "email");
    if IsNullish(email) then None else FindByEmail(st.users, ToStr(email))
  }

  /** `POST /login`. `compare(password, hash)` is `None` when the comparison
      throws. Login only reads the store, so it returns only the response; a
      session names a stored account. */
  function Login(body: Body, st: Store, compare: (Value, string) -> Option<bool>, sign: (Payload, string) -> string, startup: Option<string>, now: nat): (r: Response<Reply>)
    ensures r.status in {OK, Unauthorized, ServerError}
    ensures r.status == OK <==> r.body.Session?
    ensures r.status == OK ==> exists k :: 0 <= k < |st.users| && r.body.name == st.users[k].name && r.body.role == st.users[k].role
  {
    var b := Fields(body);
    match LoginAccount(b, st)
    case None => Response(Unauthorized, Error(InvalidCredentials))
    case Some(k) =>
      var u := st.users[k];
      match compare(Get(b, "password"), u.passwordHash)
      case None => Response(ServerError, Error(LoginFailed))
      case Some(false) => Response(Unauthorized, Error(InvalidCredentials))
      case Some(true) => Response(OK, Session(Token(u, sign, startup, now), u.name, u.role))
  }

  /** The signup outcomes: 400 "All fields are required" exactly when name,
      email or password is falsy; otherwise 400 "User already exists"
      exactly when the email is taken; otherwise 500 exactly when the role is
      not one of the two; otherwise 201. Every answer but 201 leaves the
      store as it was. */
  lemma SignupOutcomes(body: Body, st: Store, hash: string -> string, sign: (Payload, string) -> string, startup: Option<string>, now: nat)
    ensures var b := Fields(body);
      var o := Signup(body, st, hash, sign, startup, now);
      var filled := Truthy(Get(b, "name")) && Truthy(Get(b, "email")) && Truthy(Get(b, "password"));
      var untaken := FindByEmail(st.users, ToStr(Get(b, "email"))).None?;
      && (o.response == Response(BadRequest, Error(FieldsRequired)) <==> !filled)
      && (o.response == Response(BadRequest, Error(UserExists)) <==> filled && !untaken)
      && (o.response.status == ServerError <==> filled && untaken && StoredRole(Get(b, "role")).None?)
      && (o.response.status == Created <==> filled && untaken && StoredRole(Get(b, "role")).Some?)
      && (o.response.status != Created ==> o.store == st)
  {
  }

  /** A successful signup appends exactly one account: the fresh id, the
      name and email as sent, the hash of the password and never the
      password itself, no documents, not verified. The answer carries only
      the name and role besides a token for that id and role valid for seven
      days. */
  lemma SignupAddsOne(body: Body, st: Store, hash: string -> string, sign: (Payload, string) -> string, startup: Option<string>, now: nat)
    requires Signup(body, st, hash, sign, startup, now).response.status == Created
    ensures var b := Fields(body);
      var o := Signup(body, st, hash, sign, startup, now);
      && |o.store.users| == |st.users| + 1
      && o.store.users[..|st.users|] == st.users
      && var u := o.store.users[|st.users|];
      && u.id == st.nextId
      && u.name == ToStr(Get(b, "name"))
      && u.email == ToStr(Get(b, "email"))
      && u.passwordHash == hash(ToStr(Get(b, "password")))
      && (u.role == UserRole || u.role == LandlordRole)
      && u.documents == [] && !u.isVerified
      && o.response.body == Session(sign(Payload(u.id, u.role, now, now + TokenLifetime), SigningKey(startup)), u.name, u.role)
  {
  }

  /** Signup keeps ids and emails unique. */
  lemma SignupPreservesValid(body: Body, st: Store, hash: string -> string, sign: (Payload, string) -> string, startup: Option<string>, now: nat)
    requires Valid(st)
    ensures Valid(Signup(body, st, hash, sign, startup, now).store)
  {
    var b := Fields(body);
    var o := Signup(body, st, hash, sign, startup, now);
    if o.response.status == Created {
      var email := ToStr(Get(b, "email"));
      var role := StoredRole(Get(b, "role")).value;
      AddPreservesValid(st, ToStr(Get(b, "name")), email, hash(ToStr(Get(b, "password"))), role);
    }
  }

  /** Signing up again with the email of an existing account answers 400
      "User already exists", whatever the other fields say, once they are
      filled in. */
  lemma SignupTakenEmail(body: Body, st: Store, hash: string -> string, sign: (Payload, string) -> string, startup: Option<string>, now: nat, k: nat)
    requires k < |st.users|
    requires var b := Fields(body);
      Truthy(Get(b, "name")) && Truthy(Get(b, "password")) && Get(b, "email") == Str(st.users[k].email)
    requires st.users[k].email != []
    ensures Signup(body, st, hash, sign, startup, now) == Outcome(Response(BadRequest, Error(UserExists)), st)
  {
    var b := Fields(body);
    var r := FindByEmail(st.users, ToStr(Get(b, "email")));
    assert ToStr(Get(b, "email")) == st.users[k].email;
    assert r.Some?;
  }

  /** The login outcomes: 200 exactly when the email names an account and
      the password compares equal to its hash, with a token for that
      account's id and role valid for seven days; 500 exactly when the
      comparison throws; 401 "Invalid credentials" otherwise. */
  lemma LoginOutcomes(body: Body, st: Store, compare: (Value, string) -> Option<bool>, sign: (Payload, string) -> string, startup: Option<string>, now: nat)
    ensures var b := Fields(body);
      var r := Login(body, st, compare, sign, startup, now);
      var k := LoginAccount(b, st);
      && (r.status == OK <==> k.Some? && compare(Get(b, "password"), st.users[k.value].passwordHash) == Some(true))
      && (r.status == ServerError <==> k.Some? && compare(Get(b, "password"), st.users[k.value].passwordHash).None?)
      && (r.status == Unauthorized <==> r == Response(Unauthorized, Error(InvalidCredentials)))
      && (r.status == OK ==> var u := st.users[k.value];
            r.body == Session(sign(Payload(u.id, u.role, now, now + TokenLifetime), SigningKey(startup)), u.name, u.role))
      && r.status in {OK, Unauthorized, ServerError}
  {
  }

  /** An unknown email and a known email with the wrong password get the
      same answer, so the reply does not reveal which accounts exist. */
  lemma LoginUniformFailure(
    unknown: Body, wrong: Body, st: Store, compare: (Value, string) -> Option<bool>, sign: (Payload, string) -> string, startup: Option<string>, now: nat)
    requires LoginAccount(Fields(unknown), st).None?
    requires var k := LoginAccount(Fields(wrong), st);
      k.Some? && compare(Get(Fields(wrong), "password"), st.users[k.value].passwordHash) == Some(false)
    ensures Login(unknown, st, compare, sign, startup, now) == Login(wrong, st, compare, sign, startup, now)
    ensures Login(unknown, st, compare, sign, startup, now) == Response(Unauthorized, Error(InvalidCredentials))
  {
  }

  /** After a successful signup, logging in with the same email and password
      answers 200 with a session for the new account, provided the password
      compares equal to its own hash. */
  lemma SignupThenLogin(
    signup: Body, st: Store, hash: string -> string, compare: (Value, string) -> Option<bool>,
    sign: (Payload, string) -> string, startup: Option<string>, now: nat, later: nat)
    requires Valid(st)
    requires Signup(signup, st, hash, sign, startup, now).response.status == Created
    requires var password := Get(Fields(signup), "password");
      compare(password, hash(ToStr(password))) == Some(true)
    ensures var b := Fields(signup);
      var st' := Signup(signup, st, hash, sign, startup, now).store;
      var u := st'.users[|st.users|];
      && Login(Object(map["email" := Get(b, "email"), "password" := Get(b, "password")]), st', compare, sign, startup, later)
         == Response(OK, Session(sign(Payload(st.nextId, u.role, later, later + TokenLifetime), SigningKey(startup)), ToStr(Get(b, "name")), u.role))
  {
    var b := Fields(signup);
    var email := ToStr(Get(b, "email"));
    var role := StoredRole(Get(b, "role")).value;
    AddPreservesValid(st, ToStr(Get(b, "name")), email, hash(ToStr(Get(b, "password"))), role);
    var login := Object(map["email" := Get(b, "email"), "password" := Get(b, "password")]);
    assert Get(Fields(login), "email") == Get(b, "email");
    assert Get(Fields(login), "password") == Get(b, "password");
  }

  /** When the middleware verifies with the key the router signed with, a
      token from a successful login opens the landlord gate in front of the
      listing mutations exactly when the account is a landlord's, provided
      a token verifies under the key it was signed with and is one
      non-empty word. */
  lemma LoginTokenGate(
    body: Body, st: Store, compare: (Value, string) -> Option<bool>, sign: (Payload, string) -> string,
    startup: Option<string>, now: nat, verify: (string, string) -> Option<Claims>, secret: Option<string>)
    requires Login(body, st, compare, sign, startup, now).status == OK
    requires forall p: Payload, key: string :: sign(p, key) != [] && ' ' !in sign(p, key)
    requires forall p: Payload, key: string :: verify(sign(p, key), key) == Some(Claims(p.id, p.role))
    requires secret == Some(SigningKey(startup))
    ensures var s := Login(body, st, compare, sign, startup, now).body;
      var step := LandlordGate(Request(Some("Bearer " + s.token), None), verify, secret);
      && (step.Next? <==> s.role == LandlordRole)
      && (step.Next? ==> step.req.user == Some(Claims(st.users[LoginAccount(Fields(body), st).value].id, s.role)))
      && (step.Halt? ==> step.response.status == Forbidden)
  {
    var k := LoginAccount(Fields(body), st).value;
    var u := st.users[k];
    var p := Payload(u.id, u.role, now, now + TokenLifetime);
    BearerGate(sign(p, SigningKey(startup)), verify, SigningKey(startup), None);
  }

  /** When the middleware's secret is unset or empty, or differs from the
      router's signing key while a token verifies only under the key it was
      signed with, every token from a successful login is answered 403 by
      the landlord gate, landlord or not. */
  lemma LoginTokenRefused(
    body: Body, st: Store, compare: (Value, string) -> Option<bool>, sign: (Payload, string) -> string,
    startup: Option<string>, now: nat, verify: (string, string) -> Option<Claims>, secret: Option<string>)
    requires Login(body, st, compare, sign, startup, now).status == OK
    requires forall p: Payload, key: string :: sign(p, key) != [] && ' ' !in sign(p, key)
    requires forall p: Payload, key: string, other: string :: other != key ==> verify(sign(p, key), other).None?
    requires secret.None? || secret.value == [] || secret.value != SigningKey(startup)
    ensures var s := Login(body, st, compare, sign, startup, now).body;
      LandlordGate(Request(Some("Bearer " + s.token), None), verify, secret) == Halt(Response(Forbidden, BadTokenMessage))
  {
    var k := LoginAccount(Fields(body), st).value;
    var u := st.users[k];
    var p := Payload(u.id, u.role, now, now + TokenLifetime);
    BearerRefused(sign(p, SigningKey(startup)), verify, secret, None);
  }

  /** The deployment the code as written produces when the secret is kept
      only in `.env`: at load time `JWT_SECRET` is unset, so the router
      signs with the fallback key, while the middleware verifies with the
      secret from `.env`. Every login token is then refused with 403. */
  lemma DotEnvSecretRefusesLoginTokens(
    body: Body, st: Store, compare: (Value, string) -> Option<bool>, sign: (Payload, string) -> string,
    now: nat, verify: (string, string) -> Option<Claims>, envSecret: string)
    requires Login(body, st, compare, sign, None, now).status == OK
    requires forall p: Payload, key: string :: sign(p, key) != [] && ' ' !in sign(p, key)
    requires forall p: Payload, key: string, other: string :: other != key ==> verify(sign(p, key), other).None?
    requires envSecret != FallbackSecret
    ensures var s := Login(body, st, compare, sign, None, now).body;
      LandlordGate(Request(Some("Bearer " + s.token), None), verify, Some(envSecret)) == Halt(Response(Forbidden, BadTokenMessage))
  {
    LoginTokenRefused(body, st, compare, sign, None, now, verify, Some(envSecret));
  }
}

=== FILE: base.dfy ===
/** Failure-carrying wrappers shared by every module of the model. */
module Base {

  /** A value that may be absent: a missing request field, a lookup that
      found nothing, an optional document field. */
  datatype Option<+T> = None | Some(value: T) {

    /** The wrapped value, or `default` when there is none. */
    function GetOr(default: T): T {
      match this
      case Some(v) => v
      case None => default
    }
  }

  /** Either a value or the reason there is none. */
  datatype Result<+T, +E> = Ok(value: T) | Err(error: E)
}

/** HTTP status codes and the `(status, body)` pair every route answers with. */
module Http {

  const OK: nat := 200
  const Created: nat := 201
  const BadRequest: nat := 400
  const Unauthorized: nat := 401
  const Forbidden: nat := 403
  const NotFound: nat := 404
  const ServerError: nat := 500

  /** What `res.status(status).json(body)` sends; `res.json(body)` is status 200. */
  datatype Response<+B> = Response(status: nat, body: B)
}

=== FILE: js_strings.dfy ===
/** The string primitives of the JavaScript runtime that the backend leans on:
    `String.prototype.trim`, `String.prototype.split` with a one-character
    separator, decimal formatting and parsing of integers (`String(n)`,
    `Number(s)`), and the ASCII case folding of a case-insensitive match. */
module JsStrings {
  import opened Base

  // ---------------------------------------------------------------------
  // Whitespace and trimming
  // ---------------------------------------------------------------------

  /** ECMAScript WhiteSpace and LineTerminator code points: the characters
      that `trim()` removes and that `Number(s)` ignores around a numeral. */
  predicate IsSpace(c: char) {
    || c == ' ' || c == '\t' || c == '\n' || c == '\r'
    || c == '\U{000B}' || c == '\U{000C}' || c == '\U{00A0}' || c == '\U{1680}'
    || ('\U{2000}' <= c <= '\U{200A}')
    || c == '\U{2028}' || c == '\U{2029}' || c == '\U{202F}' || c == '\U{205F}'
    || c == '\U{3000}' || c == '\U{FEFF}'
  }

  predicate AllSpace(s: string) {
    forall k :: 0 <= k < |s| ==> IsSpace(s[k])
  }

  /** Neither end of `s` is whitespace. */
  predicate Trimmed(s: string) {
    s == [] || (!IsSpace(s[0]) && !IsSpace(s[|s| - 1]))
  }

  /** `s.trimStart()`: drops leading whitespace. */
  function TrimStart(s: string): string {
    if |s| > 0 && IsSpace(s[0]) then TrimStart(s[1..]) else s
  }

  /** `s.trimEnd()`: drops trailing whitespace. */
  function TrimEnd(s: string): string {
    if |s| > 0 && IsSpace(s[|s| - 1]) then TrimEnd(s[..|s| - 1]) else s
  }

  /** `s.trim()`. */
  function Trim(s: string): string {
    TrimEnd(TrimStart(s))
  }

  /** What `TrimStart` drops: the result is a suffix of `s`, what was
      dropped is all whitespace, and the result does not start with any. */
  lemma {:induction false} TrimStartFacts(s: string)
    ensures var r := TrimStart(s);
      && |r| <= |s| && r == s[|s| - |r|..]
      && AllSpace(s[..|s| - |r|])
      && (r == [] || !IsSpace(r[0]))
    decreases |s|
  {
    if |s| > 0 && IsSpace(s[0]) {
      TrimStartFacts(s[1..]);
      var r := TrimStart(s[1..]);
      assert s[..|s| - |r|] == [s[0]] + s[1..][..|s| - 1 - |r|];
    }
  }

  /** What `TrimEnd` drops: the result is a prefix of `s`, what was dropped
      is all whitespace, and the result does not end with any. */
  lemma {:induction false} TrimEndFacts(s: string)
    ensures var r := TrimEnd(s);
      && |r| <= |s| && r == s[..|r|]
      && AllSpace(s[|r|..])
      && (r == [] || !IsSpace(r[|r| - 1]))
    decreases |s|
  {
    if |s| > 0 && IsSpace(s[|s| - 1]) {
      TrimEndFacts(s[..|s| - 1]);
      var r := TrimEnd(s[..|s| - 1]);
      assert s[|r|..] == s[..|s| - 1][|r|..] + [s[|s| - 1]];
    }
  }

  /** The trimmed string has no whitespace at either end and is no longer
      than the original. */
  lemma TrimFacts(s: string)
    ensures Trimmed(Trim(s)) && |Trim(s)| <= |s|
  {
    var t := TrimStart(s);
    TrimStartFacts(s);
    TrimEndFacts(t);
    var r := TrimEnd(t);
    if r != [] {
      assert r[0] == t[0];
    }
  }

  lemma {:induction false} TrimStartSkips(pre: string, rest: string)
    requires AllSpace(pre)
    requires rest == [] || !IsSpace(rest[0])
    ensures TrimStart(pre + rest) == rest
    decreases |pre|
  {
    if pre == [] {
      assert pre + rest == rest;
    } else {
      assert (pre + rest)[1..] == pre[1..] + rest;
      TrimStartSkips(pre[1..], rest);
    }
  }

  lemma {:induction false} TrimEndSkips(rest: string, post: string)
    requires AllSpace(post)
    requires rest == [] || !IsSpace(rest[|rest| - 1])
    ensures TrimEnd(rest + post) == rest
    decreases |post|
  {
    if post == [] {
      assert rest + post == rest;
    } else {
      var post' := post[..|post| - 1];
      assert (rest + post)[..|rest + post| - 1] == rest + post';
      TrimEndSkips(rest, post');
    }
  }

  /** `trim()` removes exactly the surrounding whitespace: whatever
      whitespace is put around a string with non-blank ends, trimming gives
      that string back. */
  lemma TrimCharacterisation(pre: string, mid: string, post: string)
    requires AllSpace(pre) && AllSpace(post) && Trimmed(mid)
    ensures Trim(pre + mid + post) == mid
  {
    if mid == [] {
      assert AllSpace(pre + post) by {
        forall k | 0 <= k < |pre + post| ensures IsSpace((pre + post)[k]) {
          if k < |pre| { assert (pre + post)[k] == pre[k]; }
          else { assert (pre + post)[k] == post[k - |pre|]; }
        }
      }
      assert pre + mid + post == (pre + post) + [];
      TrimStartSkips(pre + post, []);
    } else {
      assert pre + mid + post == pre + (mid + post);
      TrimStartSkips(pre, mid + post);
      assert (mid + post)[|mid| - 1] == mid[|mid| - 1];
      TrimEndSkips(mid, post);
    }
  }

  lemma TrimOfTrimmed(s: string)
    requires Trimmed(s)
    ensures Trim(s) == s
  {
    assert [] + s + [] == s;
    TrimCharacterisation([], s, []);
  }

  /** The text `String(undefined)` has no whitespace to trim. */
  lemma TrimUndefined()
    ensures Trim("undefined") == "undefined"
  {
    TrimOfTrimmed("undefined");
  }

  /** Trimming twice is trimming once. */
  lemma TrimIdempotent(s: string)
    ensures Trim(Trim(s)) == Trim(s)
  {
    var t := Trim(s);
    TrimFacts(s);
    assert [] + t + [] == t;
    TrimCharacterisation([], t, []);
  }

  // ---------------------------------------------------------------------
  // Splitting on a one-character separator
  // ---------------------------------------------------------------------

  /** Concatenation of `parts` with `sep` between neighbours: the inverse of
      `Split`. */
  function Join(parts: seq<string>, sep: char): string
    requires |parts| >= 1
    decreases |parts|
  {
    if |parts| == 1 then parts[0] else parts[0] + [sep] + Join(parts[1..], sep)
  }

  /** `s.split(sep)` for a one-character separator: every occurrence of `sep`
      ends a field, so there is always at least one field, no field holds
      `sep`, and joining the fields back gives `s`. */
  function Split(s: string, sep: char): (parts: seq<string>)
    ensures |parts| >= 1
    ensures forall i :: 0 <= i < |parts| ==> sep !in parts[i]
    ensures Join(parts, sep) == s
    decreases |s|
  {
    if s == [] then [""]
    else
      var rest := Split(s[1..], sep);
      if s[0] == sep then
        assert ([""] + rest)[1..] == rest;
        [""] + rest
      else
        var parts := [[s[0]] + rest[0]] + rest[1..];
        assert parts[1..] == rest[1..];
        assert |rest| > 1 ==> Join(rest, sep) == rest[0] + [sep] + Join(rest[1..], sep);
        parts
  }

  /** A string splits into more than one field only when it holds the
      separator. */
  lemma SplitManyHasSeparator(s: string, sep: char)
    requires |Split(s, sep)| >= 2
    ensures sep in s
  {
    var parts := Split(s, sep);
    assert s == parts[0] + [sep] + Join(parts[1..], sep);
    assert s[|parts[0]|] == sep;
  }

  lemma {:induction false} SplitWithoutSeparator(a: string, sep: char)
    requires sep !in a
    ensures Split(a, sep) == [a]
    decreases |a|
  {
    if a != [] {
      SplitWithoutSeparator(a[1..], sep);
      assert [a[0]] + a[1..] == a;
    }
  }

  lemma {:induction false} SplitAtSeparator(a: string, b: string, sep: char)
    requires sep !in a
    ensures Split(a + [sep] + b, sep) == [a] + Split(b, sep)
    decreases |a|
  {
    var s := a + [sep] + b;
    if a == [] {
      assert s[1..] == b;
    } else {
      assert s[1..] == a[1..] + [sep] + b;
      SplitAtSeparator(a[1..], b, sep);
      assert [a[0]] + a[1..] == a;
    }
  }

  /** `Split` undoes `Join` when no field holds the separator. */
  lemma {:induction false} SplitJoin(parts: seq<string>, sep: char)
    requires |parts| >= 1
    requires forall i :: 0 <= i < |parts| ==> sep !in parts[i]
    ensures Split(Join(parts, sep), sep) == parts
    decreases |parts|
  {
    if |parts| == 1 {
      SplitWithoutSeparator(parts[0], sep);
    } else {
      SplitJoin(parts[1..], sep);
      SplitAtSeparator(parts[0], Join(parts[1..], sep), sep);
      assert [parts[0]] + parts[1..] == parts;
    }
  }

  // ---------------------------------------------------------------------
  // Decimal integers
  // ---------------------------------------------------------------------

  predicate IsDigit(c: char) {
    '0' <= c <= '9'
  }

  predicate AllDigits(s: string) {
    forall k :: 0 <= k < |s| ==> IsDigit(s[k])
  }

  function DigitChar(d: nat): (c: char)
    requires d < 10
    ensures IsDigit(c) && c as int - '0' as int == d
  {
    ('0' as int + d) as char
  }

  /** The decimal numeral of `n`, most significant digit first, without
      leading zeros. */
  function NatToString(n: nat): string
    decreases n
  {
    if n < 10 then [DigitChar(n)] else NatToString(n / 10) + [DigitChar(n % 10)]
  }

  /** The numeral of `n` is a non-empty run of digits, a single digit
      exactly when `n` is below ten. */
  lemma {:induction false} NatToStringFacts(n: nat)
    ensures var s := NatToString(n);
      |s| >= 1 && AllDigits(s) && (n < 10 <==> |s| == 1)
    decreases n
  {
    if n >= 10 {
      NatToStringFacts(n / 10);
      var s := NatToString(n);
      assert forall k :: 0 <= k < |s| - 1 ==> s[k] == NatToString(n / 10)[k];
    }
  }

  /** `String(n)` for an integer `n`. */
  function IntToString(n: int): (s: string)
    ensures s != []
  {
    if n < 0 then "-" + NatToString(-n) else NatToString(n)
  }

  /** The value of a run of decimal digits (leading zeros allowed). */
  function DigitsValue(s: string): nat
    requires AllDigits(s)
  {
    if s == [] then 0 else 10 * DigitsValue(s[..|s| - 1]) + (s[|s| - 1] as int - '0' as int)
  }

  /** `Number(s)` for a string `s`, restricted to integers: surrounding
      whitespace is ignored, a blank string is 0, an optionally signed run of
      decimal digits is its value, and everything else is `None` (NaN). */
  function ParseDecimal(s: string): Option<int> {
    ParseNumeral(Trim(s))
  }

  /** The numeral grammar `ParseDecimal` accepts once whitespace is gone. */
  function ParseNumeral(t: string): Option<int> {
    if t == [] then Some(0)
    else if (t[0] == '-' || t[0] == '+') && |t| > 1 && AllDigits(t[1..]) then
      var magnitude: int := DigitsValue(t[1..]);
      Some(if t[0] == '-' then -magnitude else magnitude)
    else if AllDigits(t) then Some(DigitsValue(t))
    else None
  }

  lemma {:induction false} DigitsValueOfNatToString(n: nat)
    ensures AllDigits(NatToString(n))
    ensures DigitsValue(NatToString(n)) == n
    decreases n
  {
    NatToStringFacts(n);
    if n >= 10 {
      var s := NatToString(n);
      assert s[..|s| - 1] == NatToString(n / 10);
      DigitsValueOfNatToString(n / 10);
    }
  }

  lemma DigitsNotSpace(d: string)
    requires |d| >= 1 && AllDigits(d)
    ensures Trimmed(d) && Trimmed("-" + d)
  {
    assert ("-" + d)[|"-" + d| - 1] == d[|d| - 1];
  }

  lemma NumeralUnsigned(d: string)
    requires |d| >= 1 && AllDigits(d)
    ensures ParseNumeral(d) == Some(DigitsValue(d))
  {
    assert IsDigit(d[0]);
  }

  lemma NumeralNegative(d: string)
    requires |d| >= 1 && AllDigits(d)
    ensures ParseNumeral("-" + d) == Some(-(DigitsValue(d) as int))
  {
    assert ("-" + d)[1..] == d;
  }

  lemma ParseUnsigned(d: string)
    requires |d| >= 1 && AllDigits(d)
    ensures ParseDecimal(d) == Some(DigitsValue(d))
  {
    DigitsNotSpace(d);
    TrimOfTrimmed(d);
    NumeralUnsigned(d);
  }

  lemma ParseNegative(d: string)
    requires |d| >= 1 && AllDigits(d)
    ensures ParseDecimal("-" + d) == Some(-(DigitsValue(d) as int))
  {
    DigitsNotSpace(d);
    TrimOfTrimmed("-" + d);
    NumeralNegative(d);
  }

  /** Parsing a formatted integer gives the integer back:
      `Number(String(n)) == n`. */
  lemma ParseFormatRoundTrip(n: int)
    ensures ParseDecimal(IntToString(n)) == Some(n)
  {
    if n < 0 {
      var d := NatToString(-n);
      NatToStringFacts(-n);
      ParseNegative(d);
      DigitsValueOfNatToString(-n);
    } else {
      var d := NatToString(n);
      NatToStringFacts(n);
      ParseUnsigned(d);
      DigitsValueOfNatToString(n);
    }
  }

  /** Different integers have different numerals. */
  lemma IntToStringInjective(m: int, n: int)
    requires IntToString(m) == IntToString(n)
    ensures m == n
  {
    ParseFormatRoundTrip(m);
    ParseFormatRoundTrip(n);
  }

  // ---------------------------------------------------------------------
  // Case-insensitive containment
  // ---------------------------------------------------------------------

  function LowerChar(c: char): char {
    if 'A' <= c <= 'Z' then (c as int + 32) as char else c
  }

  /** ASCII lower-casing. */
  function Lower(s: string): (r: string)
    ensures |r| == |s|
  {
    seq(|s|, k requires 0 <= k < |s| => LowerChar(s[k]))
  }

  /** `p` occurs in `s` starting at position `i`. */
  predicate OccursAt(p: string, s: string, i: int) {
    0 <= i && i + |p| <= |s| && s[i..i + |p|] == p
  }

  /** `p` occurs somewhere in `s`. */
  predicate IsInfix(p: string, s: string) {
    exists i | 0 <= i <= |s| - |p| :: OccursAt(p, s, i)
  }

  /** `pattern` occurs in `text` when letter case is ignored. */
  predicate ContainsIgnoringCase(text: string, pattern: string) {
    IsInfix(Lower(pattern), Lower(text))
  }
}

=== FILE: js_values.dfy ===
/** JavaScript values as they arrive in a parsed JSON request body, and the
    coercions the route handlers apply to them: truthiness (`!x`,
    `Boolean(x)`), nullishness (`x == null`, `x ?? d`), `String(x)` and
    `Number(x)`. */
module JsValues {
  import opened Base
  import opened JsStrings

  /** A primitive value of a request body field. `Undefined` is a field that
      is absent. Numbers are integers. */
  datatype Value = Undefined | Null | Bool(b: bool) | Number(n: int) | Str(s: string)

  /** The result of `Number(x)`: an integer or NaN. */
  datatype JsNumber = NaN | Int(i: int)

  /** A JSON request body as Express hands it over: an object, or an array. */
  datatype Body = Object(fields: map<string, Value>) | Array(items: seq<Item>)

  /** An element of a JSON array body: a plain object, `null`, or any other
      value (a number, string, boolean or nested array), none of which has
      the named properties the routes read. */
  datatype Item = Record(fields: map<string, Value>) | NullItem | OtherItem

  /** `obj[key]` on a plain object: an absent key reads as `undefined`. */
  function Get(obj: map<string, Value>, key: string): Value {
    if key in obj then obj[key] else Undefined
  }

  /** The named properties of `req.body || {}`: an array body has none of
      the fields the routes read. */
  function Fields(body: Body): map<string, Value> {
    match body
    case Object(fields) => fields
    case Array(_) => map[]
  }

  /** JavaScript truthiness: `undefined`, `null`, `false`, `0` and `""` are
      falsy, every other value is truthy. This is also `Boolean(v)`. */
  predicate Truthy(v: Value) {
    match v
    case Undefined => false
    case Null => false
    case Bool(b) => b
    case Number(n) => n != 0
    case Str(s) => s != ""
  }

  /** `v == null`: true exactly for `null` and `undefined`. */
  predicate IsNullish(v: Value) {
    v.Undefined? || v.Null?
  }

  /** `v ?? fallback`: the fallback replaces only a nullish value. */
  function Coalesce(v: Value, fallback: Value): Value {
    if IsNullish(v) then fallback else v
  }

  /** `String(v)`. Only the empty string converts to the empty string, so a
      missing field becomes the non-empty text "undefined". */
  function ToStr(v: Value): (r: string)
    ensures r == [] <==> v == Str([])
  {
    match v
    case Undefined => "undefined"
    case Null => "null"
    case Bool(b) => if b then "true" else "false"
    case Number(n) => IntToString(n)
    case Str(s) => s
  }

  /** `Number(v)`. `undefined` is NaN, `null` and `false` are 0, `true` is 1,
      and a string is parsed as a decimal integer. */
  function ToNumber(v: Value): JsNumber {
    match v
    case Undefined => NaN
    case Null => Int(0)
    case Bool(b) => Int(if b then 1 else 0)
    case Number(n) => Int(n)
    case Str(s) =>
      match ParseDecimal(s)
      case Some(n) => Int(n)
      case None => NaN
  }

  /** `isNaN(x)`. */
  predicate IsNaN(x: JsNumber) {
    x.NaN?
  }

  /** A number formatted as text converts back to the same number: a CSV
      cell holding `String(n)` reads as `n`. */
  lemma NumberOfFormattedNumber(n: int)
    ensures ToNumber(Str(ToStr(Number(n)))) == Int(n)
  {
    ParseFormatRoundTrip(n);
  }
}

=== FILE: listing_query.dfy ===
/** `GET /api/listings` (clientserver/src/routes/listing.ts, lines 13-41):
    the optional query parameters become a Mongo filter whose conditions are
    ANDed, the matching listings are sorted newest first and at most 100 of
    them are returned. */
module ListingQuery {
  import opened Base
  import opened JsStrings
  import opened ListingSchema

  /** `.limit(100)`. */
  const ResultCap: nat := 100

  /** The query string; `None` is a parameter that is not in the URL. */
  datatype QueryParams = QueryParams(
    city: Option<string>,
    minRent: Option<string>,
    maxRent: Option<string>,
    minSize: Option<string>,
    maxSize: Option<string>,
    furnished: Option<string>,
    q: Option<string>)

  /** A Mongo range condition `{ $gte: lo, $lte: hi }`; `None` is a side
      that is not set. */
  datatype Range = Range(lo: Option<int>, hi: Option<int>)

  /** The filter document handed to `Listing.find`; `None` is a key that is
      not set. `title` holds the pattern of the case-insensitive regex. */
  datatype Filter = Filter(
    city: Option<string>,
    rentCold: Option<Range>,
    sizeM2: Option<Range>,
    furnished: Option<bool>,
    title: Option<string>)

  /** `if (p)` on a query parameter: present and not the empty string. */
  predicate Supplied(p: Option<string>) {
    p.Some? && p.value != []
  }

  /** `Number(p)` for a supplied bound as Mongoose casts it into the query:
      NaN makes the cast, and so the whole `find`, fail. */
  function Bound(p: Option<string>): Result<Option<int>, string> {
    if !Supplied(p) then Ok(None)
    else
      match ParseDecimal(p.value)
      case Some(n) => Ok(Some(n))
      case None => Err("CastError")
  }

  /** The condition on one numeric field: set only when either side is
      supplied, and then with exactly the supplied sides. */
  function RangeOf(lo: Option<string>, hi: Option<string>): Result<Option<Range>, string> {
    if !Supplied(lo) && !Supplied(hi) then Ok(None)
    else
      match (Bound(lo), Bound(hi))
      case (Ok(l), Ok(h)) => Ok(Some(Range(l, h)))
      case _ => Err("CastError")
  }

  /** The filter construction of listing.ts lines 25-34. `furnished` is the
      one parameter checked for presence (`typeof !== "undefined"`) rather
      than truthiness. */
  function BuildFilter(p: QueryParams): (r: Result<Filter, string>)
    ensures r.Err? <==> Unreadable(p.minRent) || Unreadable(p.maxRent) || Unreadable(p.minSize) || Unreadable(p.maxSize)
    ensures r.Ok? ==> (r.value.city.Some? <==> Supplied(p.city)) && (r.value.title.Some? <==> Supplied(p.q))
  {
    var rent := RangeOf(p.minRent, p.maxRent);
    var size := RangeOf(p.minSize, p.maxSize);
    if rent.Err? || size.Err? then Err("CastError")
    else
      Ok(Filter(
        city := if Supplied(p.city) then p.city else None,
        rentCold := rent.value,
        sizeM2 := size.value,
        furnished := if p.furnished.Some? then Some(p.furnished.value == "true") else None,
        title := if Supplied(p.q) then p.q else None))
  }

  predicate InRange(r: Option<Range>, x: int) {
    r.None? || ((r.value.lo.None? || r.value.lo.value <= x) && (r.value.hi.None? || x <= r.value.hi.value))
  }

  /** Mongo's evaluation of the filter against one document. */
  predicate Matches(f: Filter, l: Listing) {
    && (f.city.None? || l.city == f.city.value)
    && InRange(f.rentCold, l.rentCold)
    && InRange(f.sizeM2, l.sizeM2)
    && (f.furnished.None? || l.furnished == f.furnished.value)
    && (f.title.None? || ContainsIgnoringCase(l.title, f.title.value))
  }

  /** The documents `find(filter)` selects, in store order. */
  function Select(rows: seq<Listing>, f: Filter): (r: seq<Listing>)
    ensures multiset(r) <= multiset(rows)
    ensures forall x :: x in r ==> Matches(f, x)
    ensures forall x :: x in rows && Matches(f, x) ==> x in r
  {
    if rows == [] then []
    else
      assert rows == [rows[0]] + rows[1..];
      (if Matches(f, rows[0]) then [rows[0]] else []) + Select(rows[1..], f)
  }

  /** Ordered by `createdAt` descending, as `.sort({ createdAt: -1 })`. */
  predicate NewestFirst(s: seq<Listing>) {
    forall i, j :: 0 <= i < j < |s| ==> s[i].createdAt >= s[j].createdAt
  }

  /** Putting a listing no younger than any of a newest-first sequence in
      front keeps the order. */
  lemma NewestFirstCons(h: Listing, t: seq<Listing>)
    requires NewestFirst(t)
    requires forall k :: 0 <= k < |t| ==> h.createdAt >= t[k].createdAt
    ensures NewestFirst([h] + t)
  {
    var r := [h] + t;
    forall i, j | 0 <= i < j < |r|
      ensures r[i].createdAt >= r[j].createdAt
    {
      assert r[j] == t[j - 1];
      if i > 0 {
        assert r[i] == t[i - 1];
      }
    }
  }

  function InsertByAge(x: Listing, s: seq<Listing>): (r: seq<Listing>)
    requires NewestFirst(s)
    ensures NewestFirst(r)
    ensures multiset(r) == multiset(s) + multiset{x}
    ensures |r| == |s| + 1
  {
    if s == [] || x.createdAt >= s[0].createdAt then
      NewestFirstCons(x, s);
      [x] + s
    else
      var tail := InsertByAge(x, s[1..]);
      assert s == [s[0]] + s[1..];
      forall k | 0 <= k < |tail|
        ensures s[0].createdAt >= tail[k].createdAt
      {
        assert tail[k] in multiset(s[1..]) + multiset{x};
        if tail[k] != x {
          assert tail[k] in s[1..];
        }
      }
      NewestFirstCons(s[0], tail);
      [s[0]] + tail
  }

  /** The newest-first ordering. Among equal timestamps this model keeps
      the store order, one of the orders the database may return. */
  function SortNewest(s: seq<Listing>): (r: seq<Listing>)
    ensures NewestFirst(r)
    ensures multiset(r) == multiset(s)
    ensures |r| == |s|
  {
    if s == [] then []
    else
      assert s == [s[0]] + s[1..];
      InsertByAge(s[0], SortNewest(s[1..]))
  }

  /** The first `n` elements, or all of them when there are fewer. */
  function Take(s: seq<Listing>, n: nat): seq<Listing> {
    if |s| <= n then s else s[..n]
  }

  /** Cutting a sequence short keeps no element more often than it was. */
  lemma TakeDrawsFrom(s: seq<Listing>, n: nat)
    ensures multiset(Take(s, n)) <= multiset(s) && |Take(s, n)| <= n
  {
    if |s| > n {
      assert s == s[..n] + s[n..];
    }
  }

  /** The whole handler: a cast failure is the 500 of the `catch`,
      otherwise at most 100 of the stored listings. */
  function Query(rows: seq<Listing>, p: QueryParams): (r: Result<seq<Listing>, string>)
    ensures r.Err? <==> BuildFilter(p).Err?
    ensures r.Ok? ==> |r.value| <= ResultCap && multiset(r.value) <= multiset(rows)
  {
    match BuildFilter(p)
    case Err(e) => Err(e)
    case Ok(f) =>
      TakeDrawsFrom(SortNewest(Select(rows, f)), ResultCap);
      Ok(Take(SortNewest(Select(rows, f)), ResultCap))
  }

  // ---------------------------------------------------------------------
  // The query parameters read directly
  // ---------------------------------------------------------------------

  /** A supplied bound that `Number` cannot read. */
  predicate Unreadable(p: Option<string>) {
    Supplied(p) && ParseDecimal(p.value).None?
  }

  /** `x` satisfies the lower bound `p`, if one is supplied. */
  predicate AtLeast(p: Option<string>, x: int) {
    !Supplied(p) || (ParseDecimal(p.value).Some? && ParseDecimal(p.value).value <= x)
  }

  /** `x` satisfies the upper bound `p`, if one is supplied. */
  predicate AtMost(p: Option<string>, x: int) {
    !Supplied(p) || (ParseDecimal(p.value).Some? && x <= ParseDecimal(p.value).value)
  }

  /** What the query string asks of a listing, one clause per parameter: an
      absent or empty parameter asks nothing (except `furnished`, where any
      present value other than "true", including "", asks for an unfurnished
      listing), bounds are inclusive, and `q` is a case-insensitive
      substring of the title. */
  predicate Admits(p: QueryParams, l: Listing) {
    && (!Supplied(p.city) || l.city == p.city.value)
    && AtLeast(p.minRent, l.rentCold) && AtMost(p.maxRent, l.rentCold)
    && AtLeast(p.minSize, l.sizeM2) && AtMost(p.maxSize, l.sizeM2)
    && (p.furnished.None? || l.furnished == (p.furnished.value == "true"))
    && (!Supplied(p.q) || ContainsIgnoringCase(l.title, p.q.value))
  }

  /** The query fails exactly when a supplied rent or size bound is not a
      number. */
  lemma QueryFailsOnUnreadableBound(rows: seq<Listing>, p: QueryParams)
    ensures Query(rows, p).Err? <==>
      Unreadable(p.minRent) || Unreadable(p.maxRent) || Unreadable(p.minSize) || Unreadable(p.maxSize)
  {
  }

  /** The filter built from the query string selects exactly the listings the
      parameters, read one by one and ANDed, admit. */
  lemma FilterMeaning(p: QueryParams, l: Listing)
    requires BuildFilter(p).Ok?
    ensures Matches(BuildFilter(p).value, l) <==> Admits(p, l)
  {
  }

  /** Two query strings that supply the same parameters, with the same
      values, build the same filter. */
  lemma SameSupplied(p: QueryParams, p': QueryParams)
    requires Supplied(p.city) == Supplied(p'.city) && (Supplied(p.city) ==> p.city == p'.city)
    requires Supplied(p.minRent) == Supplied(p'.minRent) && (Supplied(p.minRent) ==> p.minRent == p'.minRent)
    requires Supplied(p.maxRent) == Supplied(p'.maxRent) && (Supplied(p.maxRent) ==> p.maxRent == p'.maxRent)
    requires Supplied(p.minSize) == Supplied(p'.minSize) && (Supplied(p.minSize) ==> p.minSize == p'.minSize)
    requires Supplied(p.maxSize) == Supplied(p'.maxSize) && (Supplied(p.maxSize) ==> p.maxSize == p'.maxSize)
    requires Supplied(p.q) == Supplied(p'.q) && (Supplied(p.q) ==> p.q == p'.q)
    requires p.furnished == p'.furnished
    ensures BuildFilter(p) == BuildFilter(p')
  {
    assert RangeOf(p.minRent, p.maxRent) == RangeOf(p'.minRent, p'.maxRent);
    assert RangeOf(p.minSize, p.maxSize) == RangeOf(p'.minSize, p'.maxSize);
  }

  /** An empty parameter is the same as an absent one, for every parameter
      but `furnished`. */
  lemma EmptyParameterIgnored(rows: seq<Listing>, p: QueryParams)
    ensures Query(rows, p.(city := Some(""))) == Query(rows, p.(city := None))
    ensures Query(rows, p.(minRent := Some(""))) == Query(rows, p.(minRent := None))
    ensures Query(rows, p.(maxRent := Some(""))) == Query(rows, p.(maxRent := None))
    ensures Query(rows, p.(minSize := Some(""))) == Query(rows, p.(minSize := None))
    ensures Query(rows, p.(maxSize := Some(""))) == Query(rows, p.(maxSize := None))
    ensures Query(rows, p.(q := Some(""))) == Query(rows, p.(q := None))
  {
    SameSupplied(p.(city := Some("")), p.(city := None));
    SameSupplied(p.(minRent := Some("")), p.(minRent := None));
    SameSupplied(p.(maxRent := Some("")), p.(maxRent := None));
    SameSupplied(p.(minSize := Some("")), p.(minSize := None));
    SameSupplied(p.(maxSize := Some("")), p.(maxSize := None));
    SameSupplied(p.(q := Some("")), p.(q := None));
  }

  /** Cutting a newest-first sequence to its first `n` elements keeps it
      newest first, draws from it, and leaves out nothing newer than what it
      keeps. */
  lemma TakeNewest(sorted: seq<Listing>, n: nat)
    requires NewestFirst(sorted)
    ensures var r := Take(sorted, n);
      && multiset(r) <= multiset(sorted)
      && NewestFirst(r)
      && |r| <= n
      && (|r| < n ==> r == sorted)
      && (forall x, i :: x in sorted && x !in r && 0 <= i < |r| ==> r[i].createdAt >= x.createdAt)
  {
    var r := Take(sorted, n);
    if |sorted| > n {
      assert sorted == r + sorted[n..];
      forall x, i | x in sorted && x !in r && 0 <= i < |r|
        ensures r[i].createdAt >= x.createdAt
      {
        var j :| 0 <= j < |sorted| && sorted[j] == x;
        assert j >= n;
      }
    }
  }

  /** The reply is drawn from the store without duplication, every listing
      in it matches, it is ordered newest first, it holds at most 100
      listings, it holds every match when it holds fewer than 100, and no
      match left out is newer than any listing in it. */
  lemma QueryResult(rows: seq<Listing>, p: QueryParams)
    requires BuildFilter(p).Ok?
    ensures Query(rows, p).Ok?
    ensures var r := Query(rows, p).value;
      && multiset(r) <= multiset(rows)
      && (forall x :: x in r ==> Admits(p, x))
      && NewestFirst(r)
      && |r| <= ResultCap
      && (|r| < ResultCap ==> forall x :: x in rows && Admits(p, x) ==> x in r)
      && (forall x, i :: x in rows && Admits(p, x) && x !in r && 0 <= i < |r| ==> r[i].createdAt >= x.createdAt)
  {
    var f := BuildFilter(p).value;
    var selected := Select(rows, f);
    var sorted := SortNewest(selected);
    var r := Take(sorted, ResultCap);
    assert Query(rows, p) == Ok(r);
    TakeNewest(sorted, ResultCap);
    forall x | x in rows && Admits(p, x)
      ensures x in sorted
    {
      FilterMeaning(p, x);
      assert x in multiset(selected);
    }
    forall x | x in r
      ensures Admits(p, x)
    {
      assert x in multiset(sorted);
      assert x in multiset(selected);
      FilterMeaning(p, x);
    }
  }

  /** A present `furnished` parameter selects furnished listings exactly when
      it is the text "true"; any other value, the empty one included,
      selects unfurnished ones. */
  lemma FurnishedParameter(rows: seq<Listing>, p: QueryParams)
    requires BuildFilter(p).Ok? && p.furnished.Some?
    ensures forall x :: x in Query(rows, p).value ==> x.furnished == (p.furnished.value == "true")
  {
    QueryResult(rows, p);
  }
}

=== FILE: listing_routes.dfy ===
/** The listing router of clientserver/src/routes/listing.ts over an
    in-memory listing collection: the GET reply, single create, bulk create
    and delete by id, and the same three mutations behind the landlord gate.
    Every handler returns the response it sends and the store it leaves. */
module ListingRoutes {
  import opened Base
  import opened Http
  import opened JsValues
  import opened ListingSchema
  import opened ListingQuery
  import opened AuthMiddleware

  const FetchFailed: string := "Failed to fetch listings"
  const RequiredFields: string := "title, city, size_m2, rent_cold are required"
  const CreateFailed: string := "Failed to create listing"
  const ExpectedArray: string := "Expected an array of listings"
  const EachItemNeeds: string := "Each item needs title, city, size_m2, rent_cold"
  const BulkFailed: string := "Bulk insert failed"
  const ListingNotFound: string := "Listing not found"
  const ListingDeleted: string := "Listing deleted successfully"
  const DeleteFailed: string := "Failed to delete listing"

  /** The `source` a bulk-imported row gets when it names none. */
  const BulkSource: string := "csv"

  /** The listing collection: its documents in insertion order, and the next
      fresh `_id` (ids are never reused). */
  datatype Store = Store(rows: seq<Listing>, nextId: nat)

  /** Every stored record passed the schema, ids are unique and all below
      `nextId`. */
  predicate Valid(st: Store) {
    && (forall i :: 0 <= i < |st.rows| ==> st.rows[i].id < st.nextId && WellFormed(st.rows[i]))
    && (forall i, j :: 0 <= i < j < |st.rows| ==> st.rows[i].id != st.rows[j].id)
  }

  /** The JSON bodies the router sends. */
  datatype Reply =
    | Error(error: string)
    | Items(items: seq<Listing>)
    | Doc(doc: Listing)
    | Inserted(inserted: nat)
    | Deleted(message: string, id: nat)

  datatype Outcome = Outcome(response: Response<Reply>, store: Store)

  /** `GET /`: 500 exactly for an unreadable bound, otherwise at most 100
      stored listings. */
  function GetListings(st: Store, p: QueryParams): (r: Response<Reply>)
    ensures r.status == OK || r == Response(ServerError, Error(FetchFailed))
    ensures r.status == ServerError <==>
      Unreadable(p.minRent) || Unreadable(p.maxRent) || Unreadable(p.minSize) || Unreadable(p.maxSize)
    ensures r.status == OK ==> r.body.Items? && |r.body.items| <= ResultCap && multiset(r.body.items) <= multiset(st.rows)
  {
    match Query(st.rows, p)
    case Err(_) => Response(ServerError, Error(FetchFailed))
    case Ok(items) => Response(OK, Items(items))
  }

  /** The object literal of listing.ts lines 55-67 and 84-96, which differ
      only in the default `source`: strings through `String(...)` or `?? ""`,
      numbers through `Number(...)`, `furnished` through `Boolean(...)`, and
      `rent_warm` left `undefined` unless it is supplied non-null. Because
      the defaults come from `??`, a supplied `0`, `false` or `""` is kept
      and only an absent or `null` field takes the default. */
  function Normalise(b: map<string, Value>, defaultSource: string): (d: Draft)
    ensures d.title.Some? && d.city.Some? && d.sizeM2.Some? && d.rentCold.Some?
    ensures d.rentWarm.Some? <==> !IsNullish(Get(b, "rent_warm"))
    ensures IsNullish(Get(b, "rooms")) ==> d.rooms == Some(Int(DefaultRooms))
    ensures Get(b, "rooms").Number? ==> d.rooms == Some(Int(Get(b, "rooms").n))
    ensures IsNullish(Get(b, "furnished")) ==> d.furnished == Some(DefaultFurnished)
    ensures Get(b, "furnished").Bool? ==> d.furnished == Some(Get(b, "furnished").b)
    ensures IsNullish(Get(b, "source")) ==> d.source == Some(defaultSource)
    ensures Get(b, "source").Str? ==> d.source == Some(Get(b, "source").s)
  {
    var warm := Get(b, "rent_warm");
    Draft(
      title := Some(ToStr(Get(b, "title"))),
      city := Some(ToStr(Get(b, "city"))),
      district := Some(ToStr(Coalesce(Get(b, "district"), Str("")))),
      address := Some(ToStr(Coalesce(Get(b, "address"), Str("")))),
      sizeM2 := Some(ToNumber(Get(b, "size_m2"))),
      rooms := Some(ToNumber(Coalesce(Get(b, "rooms"), Number(1)))),
      furnished := Some(Truthy(Coalesce(Get(b, "furnished"), Bool(false)))),
      rentCold := Some(ToNumber(Get(b, "rent_cold"))),
      rentWarm := if !IsNullish(warm) then Some(ToNumber(warm)) else None,
      source := Some(ToStr(Coalesce(Get(b, "source"), Str(defaultSource)))),
      url := Some(ToStr(Coalesce(Get(b, "url"), Str("")))))
  }

  function Insert(st: Store, l: Listing): Store {
    Store(st.rows + [l], st.nextId + 1)
  }

  /** The guard of listing.ts line 51. */
  predicate HasRequiredFields(b: map<string, Value>) {
    Truthy(Get(b, "title")) && Truthy(Get(b, "city")) && !IsNullish(Get(b, "size_m2")) && !IsNullish(Get(b, "rent_cold"))
  }

  /** `POST /` after the gate. A schema rejection is thrown by
      `Listing.create` and becomes the 500 of the `catch`. */
  function CreateListing(body: Body, st: Store, now: int): (o: Outcome)
    ensures o.response.status in {BadRequest, ServerError, Created}
    ensures o.response.status != Created ==> o.store == st && o.response.body.Error?
    ensures o.response.status == Created ==>
      && o.response.body.Doc?
      && o.store == Store(st.rows + [o.response.body.doc], st.nextId + 1)
      && o.response.body.doc.id == st.nextId && WellFormed(o.response.body.doc)
  {
    var b := Fields(body);
    if !HasRequiredFields(b) then Outcome(Response(BadRequest, Error(RequiredFields)), st)
    else
      match Validate(Normalise(b, DefaultSource), st.nextId, now)
      case Err(_) => Outcome(Response(ServerError, Error(CreateFailed)), st)
      case Ok(doc) => Outcome(Response(Created, Doc(doc)), Insert(st, doc))
  }

  /** The per-row check of listing.ts line 99 on a normalised row:
      `!d.title || !d.city || isNaN(d.size_m2) || isNaN(d.rent_cold)`. */
  predicate PassesPrecheck(d: Draft) {
    && d.title.Some? && d.title.value != []
    && d.city.Some? && d.city.value != []
    && d.sizeM2.Some? && !IsNaN(d.sizeM2.value)
    && d.rentCold.Some? && !IsNaN(d.rentCold.value)
  }

  /** The named properties of an array element other than `null`. */
  function ItemFields(item: Item): map<string, Value> {
    match item
    case Record(fields) => fields
    case _ => map[]
  }

  /** The number of documents of a batch the schema accepts. */
  function CountAdmissible(docs: seq<Draft>): (n: nat)
    ensures n <= |docs|
  {
    if docs == [] then 0 else (if Admissible(docs[0]) then 1 else 0) + CountAdmissible(docs[1..])
  }

  /** The documents of a batch the schema accepts, in their order. */
  function AdmissibleDocs(docs: seq<Draft>): (r: seq<Draft>)
    ensures AllAdmissible(r) && |r| == CountAdmissible(docs)
    ensures forall d :: d in r <==> d in docs && Admissible(d)
    decreases |docs|
  {
    if docs == [] then []
    else
      var rest := AdmissibleDocs(docs[1..]);
      assert forall d :: d in docs <==> d == docs[0] || d in docs[1..];
      if Admissible(docs[0]) then
        assert forall k :: 0 < k < |[docs[0]] + rest| ==> ([docs[0]] + rest)[k] == rest[k - 1];
        [docs[0]] + rest
      else rest
  }

  /** The records `insertMany` adds for a batch when the next fresh id is
      `id`: each document the schema accepts, in order, under the next
      fresh id; each document it refuses is skipped. */
  function Accepted(docs: seq<Draft>, id: nat, now: int): seq<Listing>
    decreases |docs|
  {
    if docs == [] then []
    else
      match Validate(docs[0], id, now)
      case Ok(doc) => [doc] + Accepted(docs[1..], id + 1, now)
      case Err(_) => Accepted(docs[1..], id, now)
  }

  /** `Listing.insertMany(docs, { ordered: false })`: the accepted records
      are appended and the id counter moves past them. The store grows by
      the number of documents the schema accepts and keeps its records. */
  function InsertMany(docs: seq<Draft>, st: Store, now: int): (r: Store)
    ensures |r.rows| == |st.rows| + CountAdmissible(docs) && r.rows[..|st.rows|] == st.rows
    ensures r.nextId == st.nextId + CountAdmissible(docs)
    ensures forall k :: 0 <= k < CountAdmissible(docs) ==>
      r.rows[|st.rows| + k] == Build(AdmissibleDocs(docs)[k], st.nextId + k, now)
  {
    var added := Accepted(docs, st.nextId, now);
    AppendAccepted(docs, st.rows, st.nextId, now);
    Store(st.rows + added, st.nextId + |added|)
  }

  /** Some element of a bulk array is `null`. */
  predicate AnyNull(items: seq<Item>) {
    exists i :: 0 <= i < |items| && items[i].NullItem?
  }

  /** `items.map(...)` of listing.ts lines 84-96. */
  function NormaliseRows(items: seq<Item>): (docs: seq<Draft>)
    ensures |docs| == |items|
  {
    if items == [] then [] else [Normalise(ItemFields(items[0]), BulkSource)] + NormaliseRows(items[1..])
  }

  /** Row `k` of the batch is the normalised element `k`. */
  lemma {:induction false} NormaliseRowsAt(items: seq<Item>, k: nat)
    requires k < |items|
    ensures NormaliseRows(items)[k] == Normalise(ItemFields(items[k]), BulkSource)
    decreases k
  {
    if k > 0 {
      NormaliseRowsAt(items[1..], k - 1);
    }
  }

  /** Every normalised row passes the check of line 99. */
  predicate AllPass(docs: seq<Draft>) {
    forall k :: 0 <= k < |docs| ==> PassesPrecheck(docs[k])
  }

  /** `POST /bulk` after the gate: only a 201 writes, and it keeps the old
      records and adds as many as it reports, at most one per element. */
  function BulkCreate(body: Body, st: Store, now: int): (o: Outcome)
    ensures o.response.status in {BadRequest, ServerError, Created}
    ensures o.response.status != Created ==> o.store == st && o.response.body.Error?
    ensures o.response.status == Created ==>
      && body.Array? && o.response.body.Inserted?
      && |o.store.rows| == |st.rows| + o.response.body.inserted
      && o.store.rows[..|st.rows|] == st.rows
      && o.response.body.inserted <= |body.items|
  {
    var items := if body.Array? then body.items else [];
    if |items| == 0 then Outcome(Response(BadRequest, Error(ExpectedArray)), st)
    // `b.title` on a `null` element throws inside `items.map`
    else if AnyNull(items) then Outcome(Response(ServerError, Error(BulkFailed)), st)
    else
      var docs := NormaliseRows(items);
      if !AllPass(docs) then Outcome(Response(BadRequest, Error(EachItemNeeds)), st)
      else
        var st' := InsertMany(docs, st, now);
        Outcome(Response(Created, Inserted(|st'.rows| - |st.rows|)), st')
  }

  /** The `:id` path segment: an ObjectId, or text Mongoose cannot cast to
      one. */
  datatype IdParam = ObjectId(id: nat) | Malformed(text: string)

  /** Position of the first record with id `id`. */
  function IndexOfId(rows: seq<Listing>, id: nat): (r: Option<nat>)
    ensures r.Some? ==> r.value < |rows| && rows[r.value].id == id
    ensures r.Some? ==> forall k :: 0 <= k < r.value ==> rows[k].id != id
    ensures r.None? ==> forall k :: 0 <= k < |rows| ==> rows[k].id != id
  {
    if rows == [] then None
    else if rows[0].id == id then Some(0)
    else
      match IndexOfId(rows[1..], id)
      case None => None
      case Some(k) => Some(k + 1)
  }

  /** `DELETE /:id` after the gate: `findByIdAndDelete` removes the record
      with that id, if there is one. A malformed id makes the cast throw.
      Only a 200 writes, and it removes one record. */
  function DeleteListing(param: IdParam, st: Store): (o: Outcome)
    ensures o.response.status in {ServerError, NotFound, OK}
    ensures o.response.status == OK <==> param.ObjectId? && exists k :: 0 <= k < |st.rows| && st.rows[k].id == param.id
    ensures o.response.status == OK ==> |o.store.rows| == |st.rows| - 1 && o.store.nextId == st.nextId
    ensures o.response.status != OK ==> o.store == st
  {
    match param
    case Malformed(_) => Outcome(Response(ServerError, Error(DeleteFailed)), st)
    case ObjectId(id) =>
      match IndexOfId(st.rows, id)
      case None => Outcome(Response(NotFound, Error(ListingNotFound)), st)
      case Some(k) =>
        Outcome(Response(OK, Deleted(ListingDeleted, id)), Store(st.rows[..k] + st.rows[k + 1..], st.nextId))
  }

  /** A handler mounted behind `authenticateToken, requireLandlord`: it runs
      only when the gate calls `next`. */
  function Guarded(req: Request, verify: (string, string) -> Option<Claims>, secret: Option<string>, st: Store, handler: Outcome): Outcome {
    match LandlordGate(req, verify, secret)
    case Halt(r) => Outcome(Response(r.status, Error(r.body)), st)
    case Next(_) => handler
  }

  function PostListing(req: Request, verify: (string, string) -> Option<Claims>, secret: Option<string>, body: Body, st: Store, now: int): Outcome {
    Guarded(req, verify, secret, st, CreateListing(body, st, now))
  }

  function PostBulk(req: Request, verify: (string, string) -> Option<Claims>, secret: Option<string>, body: Body, st: Store, now: int): Outcome {
    Guarded(req, verify, secret, st, BulkCreate(body, st, now))
  }

  function DeleteById(req: Request, verify: (string, string) -> Option<Claims>, secret: Option<string>, param: IdParam, st: Store): Outcome {
    Guarded(req, verify, secret, st, DeleteListing(param, st))
  }

  // ---------------------------------------------------------------------
  // Single create
  // ---------------------------------------------------------------------

  /** Single create answers 400, and stores nothing, exactly when title or
      city is falsy or size_m2 or rent_cold is null or absent. */
  lemma CreateRequiresFields(body: Body, st: Store, now: int)
    ensures var o := CreateListing(body, st, now);
      (o.response.status == BadRequest <==> !HasRequiredFields(Fields(body)))
      && (o.response.status == BadRequest ==> o.store == st)
  {
  }

  /** When the required fields are there but the schema refuses the
      document (a size below 5, a negative rent, a number that is NaN, a
      title of only whitespace), the answer is 500, not 400, and nothing is
      stored. */
  lemma CreateSchemaRejectionIs500(body: Body, st: Store, now: int)
    requires HasRequiredFields(Fields(body))
    requires !Admissible(Normalise(Fields(body), DefaultSource))
    ensures CreateListing(body, st, now).response.status == ServerError
    ensures CreateListing(body, st, now).store == st
  {
  }

  /** A successful create answers 201 with the stored document, appends
      exactly that document, gives it the fresh id and the clock's time, and
      fills the route's defaults: district, address and url "", rooms 1,
      furnished false, source "manual", and no warm rent unless one is
      supplied. The title is stored trimmed. */
  lemma CreateStoresDefaults(body: Body, st: Store, now: int)
    requires CreateListing(body, st, now).response.status == Created
    ensures var o := CreateListing(body, st, now);
      var b := Fields(body);
      && o.response.body.Doc?
      && var doc := o.response.body.doc;
      && o.store == Store(st.rows + [doc], st.nextId + 1)
      && doc.id == st.nextId && doc.createdAt == now && doc.updatedAt == now
      && doc.title == JsStrings.Trim(ToStr(Get(b, "title")))
      && (IsNullish(Get(b, "district")) ==> doc.district == "")
      && (IsNullish(Get(b, "address")) ==> doc.address == "")
      && (IsNullish(Get(b, "url")) ==> doc.url == "")
      && (IsNullish(Get(b, "rooms")) ==> doc.rooms == 1)
      && (IsNullish(Get(b, "furnished")) ==> !doc.furnished)
      && (IsNullish(Get(b, "source")) ==> doc.source == "manual")
      && (doc.rentWarm.None? <==> IsNullish(Get(b, "rent_warm")))
  {
    var b := Fields(body);
    SchemaStoresDraft(Normalise(b, DefaultSource), st.nextId, now);
  }

  /** The defaults of single create replace only absent or `null` fields:
      a supplied number of rooms, `furnished` flag, district, address,
      source or url reaches the stored record as sent, even when it is `0`,
      `false` or `""`, which a `||` default would have replaced. */
  lemma CreateKeepsSuppliedValues(body: Body, st: Store, now: int)
    requires CreateListing(body, st, now).response.status == Created
    ensures var b := Fields(body);
      var doc := CreateListing(body, st, now).response.body.doc;
      && (Get(b, "rooms").Number? ==> doc.rooms == Get(b, "rooms").n)
      && (Get(b, "furnished").Bool? ==> doc.furnished == Get(b, "furnished").b)
      && (Get(b, "district").Str? ==> doc.district == Get(b, "district").s)
      && (Get(b, "address").Str? ==> doc.address == Get(b, "address").s)
      && (Get(b, "source").Str? ==> doc.source == Get(b, "source").s)
      && (Get(b, "url").Str? ==> doc.url == Get(b, "url").s)
  {
    SchemaStoresDraft(Normalise(Fields(body), DefaultSource), st.nextId, now);
  }

  /** Appending a well-formed record under the next fresh id keeps the
      store valid. */
  lemma InsertPreservesValid(st: Store, doc: Listing)
    requires Valid(st) && WellFormed(doc) && doc.id == st.nextId
    ensures Valid(Insert(st, doc))
  {
    var rows := st.rows + [doc];
    assert forall i :: 0 <= i < |st.rows| ==> rows[i] == st.rows[i];
  }

  /** Every store a create leaves behind is still valid. */
  lemma CreatePreservesValid(body: Body, st: Store, now: int)
    requires Valid(st)
    ensures Valid(CreateListing(body, st, now).store)
  {
    var b := Fields(body);
    if HasRequiredFields(b) {
      var r := Validate(Normalise(b, DefaultSource), st.nextId, now);
      if r.Ok? {
        InsertPreservesValid(st, r.value);
      }
    }
  }

  // ---------------------------------------------------------------------
  // Bulk create
  // ---------------------------------------------------------------------

  /** Every document of a batch passes the schema. */
  predicate AllAdmissible(docs: seq<Draft>) {
    forall k :: 0 <= k < |docs| ==> Admissible(docs[k])
  }

  lemma AllAdmissibleTail(docs: seq<Draft>)
    requires docs != [] && AllAdmissible(docs)
    ensures Admissible(docs[0]) && AllAdmissible(docs[1..])
  {
    assert forall k :: 0 <= k < |docs| - 1 ==> docs[1..][k] == docs[k + 1];
  }

  /** `insertMany` adds exactly as many records as the batch has documents
      the schema accepts. */
  lemma {:induction false} AcceptedCount(docs: seq<Draft>, id: nat, now: int)
    ensures |Accepted(docs, id, now)| == CountAdmissible(docs)
    decreases |docs|
  {
    if docs != [] {
      AcceptedCount(docs[1..], id + 1, now);
      AcceptedCount(docs[1..], id, now);
    }
  }

  /** In a batch of documents that all pass the schema, every one counts. */
  lemma {:induction false} CountAll(docs: seq<Draft>)
    requires AllAdmissible(docs)
    ensures CountAdmissible(docs) == |docs|
    decreases |docs|
  {
    if docs != [] {
      AllAdmissibleTail(docs);
      CountAll(docs[1..]);
    }
  }

  /** The added records passed the schema and carry consecutive ids from
      `id`. */
  lemma {:induction false} AcceptedStamps(docs: seq<Draft>, id: nat, now: int)
    ensures forall k :: 0 <= k < |Accepted(docs, id, now)| ==>
      Accepted(docs, id, now)[k].id == id + k && WellFormed(Accepted(docs, id, now)[k])
    decreases |docs|
  {
    if docs != [] {
      var r := Validate(docs[0], id, now);
      if r.Ok? {
        var rest := Accepted(docs[1..], id + 1, now);
        AcceptedStamps(docs[1..], id + 1, now);
        var added := [r.value] + rest;
        assert Accepted(docs, id, now) == added;
        forall k | 0 <= k < |added|
          ensures added[k].id == id + k && WellFormed(added[k])
        {
          if k > 0 {
            assert added[k] == rest[k - 1];
          }
        }
      } else {
        AcceptedStamps(docs[1..], id, now);
      }
    }
  }

  /** When every document passes the schema, record `k` of those added is
      document `k`, stored under id `id + k`. */
  lemma {:induction false} AcceptedAt(docs: seq<Draft>, id: nat, now: int, k: nat)
    requires AllAdmissible(docs) && k < |docs|
    ensures k < |Accepted(docs, id, now)|
    ensures Accepted(docs, id, now)[k] == Build(docs[k], id + k, now)
    decreases k
  {
    AllAdmissibleTail(docs);
    var rest := Accepted(docs[1..], id + 1, now);
    assert Accepted(docs, id, now) == [Build(docs[0], id, now)] + rest;
    if k > 0 {
      AcceptedAt(docs[1..], id + 1, now, k - 1);
      assert docs[1..][k - 1] == docs[k];
    }
  }


  /** Taking out refused documents leaves a batch the schema accepts in
      full unchanged. */
  lemma {:induction false} AdmissibleDocsAll(docs: seq<Draft>)
    requires AllAdmissible(docs)
    ensures AdmissibleDocs(docs) == docs
    decreases |docs|
  {
    if docs != [] {
      AllAdmissibleTail(docs);
      AdmissibleDocsAll(docs[1..]);
      assert [docs[0]] + docs[1..] == docs;
    }
  }

  /** `insertMany` with `ordered: false` adds the same records as it would
      for the batch with its refused documents taken out. */
  lemma {:induction false} AcceptedSkipsRefused(docs: seq<Draft>, id: nat, now: int)
    ensures Accepted(docs, id, now) == Accepted(AdmissibleDocs(docs), id, now)
    decreases |docs|
  {
    if docs != [] {
      var rest := AdmissibleDocs(docs[1..]);
      if Admissible(docs[0]) {
        var f := [docs[0]] + rest;
        assert f[0] == docs[0] && f[1..] == rest;
        AcceptedSkipsRefused(docs[1..], id + 1, now);
      } else {
        AcceptedSkipsRefused(docs[1..], id, now);
      }
    }
  }

  /** Record `k` of those added is the `k`-th document the schema accepts,
      stored under id `id + k`. */
  lemma AcceptedInOrder(docs: seq<Draft>, id: nat, now: int)
    ensures |Accepted(docs, id, now)| == CountAdmissible(docs)
    ensures forall k :: 0 <= k < CountAdmissible(docs) ==>
      Accepted(docs, id, now)[k] == Build(AdmissibleDocs(docs)[k], id + k, now)
  {
    AcceptedCount(docs, id, now);
    AcceptedSkipsRefused(docs, id, now);
    forall k | 0 <= k < CountAdmissible(docs)
      ensures Accepted(docs, id, now)[k] == Build(AdmissibleDocs(docs)[k], id + k, now)
    {
      AcceptedAt(AdmissibleDocs(docs), id, now, k);
    }
  }

  /** Appending the added records after `rows` keeps `rows` and puts the
      `k`-th accepted document at offset `k`. */
  lemma AppendAccepted(docs: seq<Draft>, rows: seq<Listing>, id: nat, now: int)
    ensures var all := rows + Accepted(docs, id, now);
      && |all| == |rows| + CountAdmissible(docs)
      && all[..|rows|] == rows
      && forall k :: 0 <= k < CountAdmissible(docs) ==>
           all[|rows| + k] == Build(AdmissibleDocs(docs)[k], id + k, now)
  {
    var added := Accepted(docs, id, now);
    var all := rows + added;
    AcceptedInOrder(docs, id, now);
    AppendParts(rows, added);
    forall k | 0 <= k < CountAdmissible(docs)
      ensures all[|rows| + k] == Build(AdmissibleDocs(docs)[k], id + k, now)
    {
      assert all[|rows| + k] == added[k];
    }
  }

  /** A body that is not an array, or an empty array, is answered 400 and
      stores nothing. */
  lemma BulkNeedsNonEmptyArray(body: Body, st: Store, now: int)
    requires body.Object? || body.items == []
    ensures BulkCreate(body, st, now) == Outcome(Response(BadRequest, Error(ExpectedArray)), st)
  {
  }

  /** A `null` element makes the conversion throw: 500, nothing stored. */
  lemma BulkNullItemIs500(items: seq<Item>, st: Store, now: int, i: nat)
    requires i < |items| && items[i].NullItem?
    ensures BulkCreate(Array(items), st, now) == Outcome(Response(ServerError, Error(BulkFailed)), st)
  {
    assert AnyNull(items);
  }

  /** One row that fails the check of line 99 rejects the whole batch with
      400 before anything is stored. */
  lemma BulkAllOrNothing(items: seq<Item>, st: Store, now: int, i: nat)
    requires !AnyNull(items)
    requires i < |items| && !PassesPrecheck(Normalise(ItemFields(items[i]), BulkSource))
    ensures BulkCreate(Array(items), st, now) == Outcome(Response(BadRequest, Error(EachItemNeeds)), st)
  {
    NormaliseRowsAt(items, i);
  }

  /** A batch that gets past the checks is handed to `insertMany`. */
  lemma BulkReachesInsertMany(items: seq<Item>, st: Store, now: int)
    requires |items| > 0 && !AnyNull(items) && AllPass(NormaliseRows(items))
    ensures var added := Accepted(NormaliseRows(items), st.nextId, now);
      BulkCreate(Array(items), st, now) ==
        Outcome(Response(Created, Inserted(|added|)), Store(st.rows + added, st.nextId + |added|))
  {
  }

  lemma AppendParts<T>(a: seq<T>, b: seq<T>)
    ensures (a + b)[..|a|] == a
    ensures forall k :: 0 <= k < |b| ==> (a + b)[|a| + k] == b[k]
  {
  }

  /** When the batch gets past the checks, the answer is 201 and `inserted`
      counts the rows the schema accepts; rows it refuses (a size below 5,
      say) are skipped without failing the batch. The records stored before
      are kept as they were. */
  lemma BulkCountsAccepted(items: seq<Item>, st: Store, now: int)
    requires |items| > 0 && !AnyNull(items) && AllPass(NormaliseRows(items))
    ensures var o := BulkCreate(Array(items), st, now);
      && o.response == Response(Created, Inserted(CountAdmissible(NormaliseRows(items))))
      && |o.store.rows| == |st.rows| + CountAdmissible(NormaliseRows(items))
      && o.store.rows[..|st.rows|] == st.rows
      && forall k :: 0 <= k < CountAdmissible(NormaliseRows(items)) ==>
           o.store.rows[|st.rows| + k] == Build(AdmissibleDocs(NormaliseRows(items))[k], st.nextId + k, now)
  {
    var docs := NormaliseRows(items);
    var added := Accepted(docs, st.nextId, now);
    BulkReachesInsertMany(items, st, now);
    AcceptedCount(docs, st.nextId, now);
    AppendAccepted(docs, st.rows, st.nextId, now);
    var all := st.rows + added;
    assert BulkCreate(Array(items), st, now) ==
      Outcome(Response(Created, Inserted(CountAdmissible(docs))), Store(all, st.nextId + |added|));
  }

  /** Row `k` of a batch whose rows all pass the schema is stored under id
      `id + k`, with source "csv" unless it names one. */
  lemma BulkRowAt(items: seq<Item>, id: nat, now: int, k: nat)
    requires AllAdmissible(NormaliseRows(items)) && k < |items|
    ensures k < |Accepted(NormaliseRows(items), id, now)|
    ensures var row := Accepted(NormaliseRows(items), id, now)[k];
      && row.id == id + k
      && (IsNullish(Get(ItemFields(items[k]), "source")) ==> row.source == BulkSource)
  {
    var docs := NormaliseRows(items);
    AcceptedAt(docs, id, now, k);
    NormaliseRowsAt(items, k);
    SchemaStoresDraft(docs[k], id + k, now);
  }

  /** When every row passes the check and the schema, all rows are stored,
      in order and under consecutive fresh ids: the record after the old
      ones at offset `k` is the schema's record for row `k`, with source
      "csv" unless the row names one, and `inserted` is the number of rows. */
  lemma BulkInsertsEveryRow(items: seq<Item>, st: Store, now: int)
    requires |items| > 0 && !AnyNull(items) && AllPass(NormaliseRows(items))
    requires AllAdmissible(NormaliseRows(items))
    ensures var o := BulkCreate(Array(items), st, now);
      && o.response == Response(Created, Inserted(|items|))
      && |o.store.rows| == |st.rows| + |items|
      && o.store.rows[..|st.rows|] == st.rows
      && forall k :: 0 <= k < |items| ==>
           && Admissible(NormaliseRows(items)[k])
           && o.store.rows[|st.rows| + k] == Build(NormaliseRows(items)[k], st.nextId + k, now)
           && o.store.rows[|st.rows| + k].id == st.nextId + k
           && (IsNullish(Get(ItemFields(items[k]), "source")) ==> o.store.rows[|st.rows| + k].source == BulkSource)
  {
    var added := Accepted(NormaliseRows(items), st.nextId, now);
    BulkReachesInsertMany(items, st, now);
    var o := BulkCreate(Array(items), st, now);
    assert o.store.rows == st.rows + added;
    CountAll(NormaliseRows(items));
    AcceptedCount(NormaliseRows(items), st.nextId, now);
    StoredRows(items, st.rows, st.nextId, now);
  }

  /** After `old_rows`, an all-admissible batch is stored row by row. */
  lemma StoredRows(items: seq<Item>, old_rows: seq<Listing>, id: nat, now: int)
    requires AllAdmissible(NormaliseRows(items))
    ensures var all := old_rows + Accepted(NormaliseRows(items), id, now);
      && |all| == |old_rows| + |items|
      && all[..|old_rows|] == old_rows
      && forall k :: 0 <= k < |items| ==>
           && Admissible(NormaliseRows(items)[k])
           && all[|old_rows| + k] == Build(NormaliseRows(items)[k], id + k, now)
           && all[|old_rows| + k].id == id + k
           && (IsNullish(Get(ItemFields(items[k]), "source")) ==> all[|old_rows| + k].source == BulkSource)
  {
    CountAll(NormaliseRows(items));
    AcceptedCount(NormaliseRows(items), id, now);
    AppendParts(old_rows, Accepted(NormaliseRows(items), id, now));
    forall k | 0 <= k < |items|
      ensures var all := old_rows + Accepted(NormaliseRows(items), id, now);
        && Admissible(NormaliseRows(items)[k])
        && all[|old_rows| + k] == Build(NormaliseRows(items)[k], id + k, now)
        && all[|old_rows| + k].id == id + k
        && (IsNullish(Get(ItemFields(items[k]), "source")) ==> all[|old_rows| + k].source == BulkSource)
    {
      StoredRowAt(items, old_rows, id, now, k);
    }
  }

  /** Row `k` of an all-admissible batch, once appended after `old_rows`. */
  lemma StoredRowAt(items: seq<Item>, old_rows: seq<Listing>, id: nat, now: int, k: nat)
    requires AllAdmissible(NormaliseRows(items)) && k < |items|
    ensures var all := old_rows + Accepted(NormaliseRows(items), id, now);
      && |old_rows| + k < |all|
      && Admissible(NormaliseRows(items)[k])
      && all[|old_rows| + k] == Build(NormaliseRows(items)[k], id + k, now)
      && all[|old_rows| + k].id == id + k
      && (IsNullish(Get(ItemFields(items[k]), "source")) ==> all[|old_rows| + k].source == BulkSource)
  {
    var docs := NormaliseRows(items);
    var added := Accepted(docs, id, now);
    AcceptedAt(docs, id, now, k);
    BulkRowAt(items, id, now, k);
    assert (old_rows + added)[|old_rows| + k] == added[k];
  }

  /** A row without a title is not refused for it, because
      `String(undefined)` is the text "undefined": when the batch is stored,
      that row is stored under the title "undefined". */
  lemma BulkMissingTitleStoredAsUndefined(items: seq<Item>, st: Store, now: int, k: nat)
    requires |items| > 0 && !AnyNull(items) && AllPass(NormaliseRows(items))
    requires AllAdmissible(NormaliseRows(items))
    requires k < |items| && "title" !in ItemFields(items[k])
    ensures var rows := BulkCreate(Array(items), st, now).store.rows;
      |st.rows| + k < |rows| && rows[|st.rows| + k].title == "undefined"
  {
    var docs := NormaliseRows(items);
    BulkReachesInsertMany(items, st, now);
    AcceptedAt(docs, st.nextId, now, k);
    AppendParts(st.rows, Accepted(docs, st.nextId, now));
    UntitledRow(items, k, st.nextId + k, now);
  }

  lemma UntitledRow(items: seq<Item>, k: nat, id: nat, now: int)
    requires k < |items| && "title" !in ItemFields(items[k])
    requires Admissible(NormaliseRows(items)[k])
    ensures Build(NormaliseRows(items)[k], id, now).title == "undefined"
  {
    NormaliseRowsAt(items, k);
    var d := NormaliseRows(items)[k];
    assert d.title == Some("undefined");
    UntitledBuild(d, id, now);
  }

  lemma UntitledBuild(d: Draft, id: nat, now: int)
    requires Admissible(d) && d.title == Some("undefined")
    ensures Build(d, id, now).title == "undefined"
  {
    JsStrings.TrimUndefined();
  }

  /** A row with no title, read field by field: its title is "undefined", so
      it passes the check of line 99 exactly when its city, size and cold
      rent do. */
  lemma MissingTitleIsUndefined(fields: map<string, Value>)
    requires "title" !in fields
    ensures var d := Normalise(fields, BulkSource);
      && d.title == Some("undefined")
      && (PassesPrecheck(d) <==>
            ToStr(Get(fields, "city")) != [] && !IsNaN(ToNumber(Get(fields, "size_m2"))) && !IsNaN(ToNumber(Get(fields, "rent_cold"))))
  {
  }

  /** `Boolean("false")` is true: a CSV row whose `furnished` cell reads
      "false" is stored as furnished. */
  lemma BulkCsvFalseIsFurnished(fields: map<string, Value>)
    requires "furnished" in fields && fields["furnished"] == Str("false")
    ensures Normalise(fields, BulkSource).furnished == Some(true)
  {
  }

  /** Storing a batch keeps the store valid. */
  lemma InsertManyPreservesValid(docs: seq<Draft>, st: Store, now: int)
    requires Valid(st)
    ensures Valid(InsertMany(docs, st, now))
  {
    var added := Accepted(docs, st.nextId, now);
    var rows := st.rows + added;
    var n := |st.rows|;
    AcceptedStamps(docs, st.nextId, now);
    forall i | 0 <= i < |rows|
      ensures rows[i].id < st.nextId + |added| && WellFormed(rows[i])
      ensures i >= n ==> rows[i].id == st.nextId + (i - n)
    {
      if i >= n {
        assert rows[i] == added[i - n];
      } else {
        assert rows[i] == st.rows[i];
      }
    }
    forall i, j | 0 <= i < j < |rows|
      ensures rows[i].id != rows[j].id
    {
      if j < n {
        assert rows[i] == st.rows[i] && rows[j] == st.rows[j];
      }
    }
  }


  /** Every store a bulk create leaves behind is still valid. */
  lemma BulkPreservesValid(body: Body, st: Store, now: int)
    requires Valid(st)
    ensures Valid(BulkCreate(body, st, now).store)
  {
    if body.Array? && |body.items| > 0 && !AnyNull(body.items) && AllPass(NormaliseRows(body.items)) {
      InsertManyPreservesValid(NormaliseRows(body.items), st, now);
    }
  }

  // ---------------------------------------------------------------------
  // Delete
  // ---------------------------------------------------------------------

  /** Deleting an id that is not stored answers 404 and changes nothing. */
  lemma DeleteAbsent(id: nat, st: Store)
    requires forall k :: 0 <= k < |st.rows| ==> st.rows[k].id != id
    ensures DeleteListing(ObjectId(id), st) == Outcome(Response(NotFound, Error(ListingNotFound)), st)
  {
  }

  /** Deleting a stored id answers 200 echoing the id and removes exactly
      that record: the others stay, in order, and no record with the id is
      left. */
  lemma DeletePresent(id: nat, st: Store, k: nat)
    requires Valid(st)
    requires k < |st.rows| && st.rows[k].id == id
    ensures var o := DeleteListing(ObjectId(id), st);
      && o.response == Response(OK, Deleted(ListingDeleted, id))
      && o.store == Store(st.rows[..k] + st.rows[k + 1..], st.nextId)
      && (forall j :: 0 <= j < |o.store.rows| ==> o.store.rows[j].id != id)
  {
    var rows' := st.rows[..k] + st.rows[k + 1..];
    forall j | 0 <= j < |rows'|
      ensures rows'[j].id != id
    {
      if j < k { assert rows'[j] == st.rows[j]; }
      else { assert rows'[j] == st.rows[j + 1]; }
    }
  }

  /** Deleting the same stored id twice answers 200, then 404. */
  lemma DeleteTwice(id: nat, st: Store, k: nat)
    requires Valid(st)
    requires k < |st.rows| && st.rows[k].id == id
    ensures var first := DeleteListing(ObjectId(id), st);
      && first.response.status == OK
      && DeleteListing(ObjectId(id), first.store).response.status == NotFound
  {
    DeletePresent(id, st, k);
  }

  /** Every store a delete leaves behind is still valid. */
  lemma DeletePreservesValid(param: IdParam, st: Store)
    requires Valid(st)
    ensures Valid(DeleteListing(param, st).store)
  {
    var o := DeleteListing(param, st);
    if param.ObjectId? && IndexOfId(st.rows, param.id).Some? {
      var k := IndexOfId(st.rows, param.id).value;
      var rows' := o.store.rows;
      assert forall j :: 0 <= j < |rows'| ==> rows'[j] == if j < k then st.rows[j] else st.rows[j + 1];
    }
  }

  // ---------------------------------------------------------------------
  // The landlord gate
  // ---------------------------------------------------------------------

  /** A request the gate stops is answered 401 or 403 and leaves the store
      as it was, whichever mutation it was aimed at. */
  lemma GateProtectsStore(req: Request, verify: (string, string) -> Option<Claims>, secret: Option<string>, body: Body, param: IdParam, st: Store, now: int)
    requires LandlordGate(req, verify, secret).Halt?
    ensures var outcomes := [PostListing(req, verify, secret, body, st, now), PostBulk(req, verify, secret, body, st, now), DeleteById(req, verify, secret, param, st)];
      forall o :: o in outcomes ==> o.store == st && o.response.status in {Unauthorized, Forbidden}
  {
  }
}

=== FILE: listing_schema.dfy ===
/** The Mongoose `ListingSchema` (clientserver/src/models/listing.ts): which
    documents it accepts, the defaults it fills in, the trimming of `title`
    and the timestamps it stamps on every stored record. */
module ListingSchema {
  import opened Base
  import opened JsStrings
  import opened JsValues

  const MinSizeM2: int := 5
  const MinRent: int := 0
  const DefaultRooms: int := 1
  const DefaultFurnished: bool := false
  const DefaultSource: string := "manual"

  /** A stored listing document. `id` is the document's `_id`; `createdAt`
      and `updatedAt` are the schema's timestamps. */
  datatype Listing = Listing(
    id: nat,
    title: string,
    city: string,
    district: string,
    address: string,
    sizeM2: int,
    rooms: int,
    furnished: bool,
    rentCold: int,
    rentWarm: Option<int>,
    source: string,
    url: string,
    createdAt: int,
    updatedAt: int)

  /** The object a route hands to `Listing.create` or `insertMany`, after the
      route's own conversions. `None` is a field left `undefined`; string
      fields hold what Mongoose's String cast makes of the route's value. */
  datatype Draft = Draft(
    title: Option<string>,
    city: Option<string>,
    district: Option<string>,
    address: Option<string>,
    sizeM2: Option<JsNumber>,
    rooms: Option<JsNumber>,
    furnished: Option<bool>,
    rentCold: Option<JsNumber>,
    rentWarm: Option<JsNumber>,
    source: Option<string>,
    url: Option<string>)

  /** A number field that is present and not NaN (Mongoose's Number cast
      rejects NaN). */
  predicate IsNumber(x: Option<JsNumber>) {
    x.Some? && x.value.Int?
  }

  /** The schema's acceptance condition, field by field: `title` (after
      trimming) and `city` are required non-empty strings, `size_m2` is a
      number of at least 5, `rooms` when given is a number, `rent_cold` is a
      number of at least 0, and `rent_warm` when given is a number of at
      least 0. Nothing relates `rent_warm` to `rent_cold`. */
  predicate Admissible(d: Draft) {
    && d.title.Some? && Trim(d.title.value) != []
    && d.city.Some? && d.city.value != []
    && IsNumber(d.sizeM2) && d.sizeM2.value.i >= MinSizeM2
    && (d.rooms.None? || IsNumber(d.rooms))
    && IsNumber(d.rentCold) && d.rentCold.value.i >= MinRent
    && (d.rentWarm.None? || (IsNumber(d.rentWarm) && d.rentWarm.value.i >= MinRent))
  }

  /** Every record the schema lets into the store has a trimmed non-empty
      title, a non-empty city, a size of at least 5, a non-negative cold
      rent, a non-negative warm rent when it has one, and equal creation and
      update timestamps (no route updates a listing). */
  predicate WellFormed(l: Listing) {
    && l.title != [] && Trimmed(l.title)
    && l.city != []
    && l.sizeM2 >= MinSizeM2
    && l.rentCold >= MinRent
    && (l.rentWarm.Some? ==> l.rentWarm.value >= MinRent)
    && l.updatedAt == l.createdAt
  }

  /** The first path of `d` the schema refuses, in the schema's field
      order, or `None` when it refuses none. */
  function FirstFailure(d: Draft): (r: Option<string>)
    ensures r.None? <==> Admissible(d)
  {
    if d.title.None? || Trim(d.title.value) == [] then Some("title")
    else if d.city.None? || d.city.value == [] then Some("city")
    else if !IsNumber(d.sizeM2) || d.sizeM2.value.i < MinSizeM2 then Some("size_m2")
    else if d.rooms.Some? && !IsNumber(d.rooms) then Some("rooms")
    else if !IsNumber(d.rentCold) || d.rentCold.value.i < MinRent then Some("rent_cold")
    else if d.rentWarm.Some? && (!IsNumber(d.rentWarm) || d.rentWarm.value.i < MinRent) then Some("rent_warm")
    else None
  }

  /** The record the schema stores for an admissible draft: the schema
      defaults filled in, the title trimmed, the id and both timestamps
      stamped. */
  function Build(d: Draft, id: nat, now: int): (l: Listing)
    requires Admissible(d)
    ensures WellFormed(l) && l.id == id && l.createdAt == now
  {
    TrimFacts(d.title.value);
    Listing(
      id := id,
      title := Trim(d.title.value),
      city := d.city.value,
      district := d.district.GetOr(""),
      address := d.address.GetOr(""),
      sizeM2 := d.sizeM2.value.i,
      rooms := if d.rooms.Some? then d.rooms.value.i else DefaultRooms,
      furnished := d.furnished.GetOr(DefaultFurnished),
      rentCold := d.rentCold.value.i,
      rentWarm := if d.rentWarm.Some? then Some(d.rentWarm.value.i) else None,
      source := d.source.GetOr(DefaultSource),
      url := d.url.GetOr(""),
      createdAt := now,
      updatedAt := now)
  }

  /** `new Listing(d).validate()` followed by the save: casts and validates
      the draft, and on success stores the record `Build` describes. The
      error names the first failing path. */
  function Validate(d: Draft, id: nat, now: int): (r: Result<Listing, string>)
    ensures r.Ok? <==> Admissible(d)
    ensures r.Ok? ==> r.value == Build(d, id, now) && WellFormed(r.value)
    ensures r.Err? ==> r.error in {"title", "city", "size_m2", "rooms", "rent_cold", "rent_warm"}
  {
    match FirstFailure(d)
    case Some(path) => Err(path)
    case None => Ok(Build(d, id, now))
  }

  /** The stored record keeps what the draft supplied, with the title
      trimmed, and takes the schema defaults for what it left out: district,
      address and url "", rooms 1, furnished false, source "manual", and no
      warm rent. */
  lemma SchemaStoresDraft(d: Draft, id: nat, now: int)
    requires Admissible(d)
    ensures var l := Build(d, id, now);
      && l.title == Trim(d.title.value)
      && l.city == d.city.value
      && l.sizeM2 == d.sizeM2.value.i
      && l.rentCold == d.rentCold.value.i
      && l.district == (if d.district.Some? then d.district.value else "")
      && l.address == (if d.address.Some? then d.address.value else "")
      && l.url == (if d.url.Some? then d.url.value else "")
      && l.rooms == (if d.rooms.Some? then d.rooms.value.i else 1)
      && l.furnished == (d.furnished == Some(true))
      && l.source == (if d.source.Some? then d.source.value else "manual")
      && (l.rentWarm.Some? <==> d.rentWarm.Some?)
      && (l.rentWarm.Some? ==> l.rentWarm.value == d.rentWarm.value.i)
  {
  }

  /** A size below 5 or a negative cold or warm rent is refused whatever the
      other fields hold; a warm rent below the cold rent is not. */
  lemma SchemaBounds(d: Draft, id: nat, now: int)
    ensures IsNumber(d.sizeM2) && d.sizeM2.value.i < 5 ==> Validate(d, id, now).Err?
    ensures IsNumber(d.rentCold) && d.rentCold.value.i < 0 ==> Validate(d, id, now).Err?
    ensures IsNumber(d.rentWarm) && d.rentWarm.value.i < 0 ==> Validate(d, id, now).Err?
    ensures (Admissible(d.(rentWarm := None)) && IsNumber(d.rentWarm)
             && 0 <= d.rentWarm.value.i < d.rentCold.value.i) ==> Validate(d, id, now).Ok?
  {
  }
}

=== FILE: upload_policy.dfy ===
/** The multer configuration of clientserver/utils/multerConfig.ts and the
    `upload.array("documents", 5)` middleware built from it: which file
    parts of a multipart request are accepted, the name and place each
    accepted file is written under, and the error that aborts the request
    otherwise. */
module UploadPolicy {
  import opened Base
  import opened JsStrings

  /** The `destination` callback's directory. */
  const Destination: string := "uploads/"

  /** The content types the `fileFilter` lets through. */
  const AllowedTypes: seq<string> := ["application/pdf", "image/jpeg", "image/png"]

  const InvalidFileType: string := "Invalid file type"

  /** What multer reports for a file under another field name, or for one
      file too many. */
  const UnexpectedField: string := "Unexpected field"

  /** The field `upload.array` reads and how many files it takes from it. */
  const DocumentsField: string := "documents"
  const MaxFiles: nat := 5

  /** A file part of the request as multer sees it: the form field, the
      client's file name (a base name, without directories), the declared
      content type, and the `Date.now()` reading at the moment the storage
      names the file. */
  datatype Part = Part(field: string, originalName: string, mimeType: string, receivedAt: nat)

  /** A file written to disk, as it appears in `req.files`. */
  datatype SavedFile = SavedFile(originalName: string, mimeType: string, filename: string, path: string)

  /** The `fileFilter` callback: accept PDF, JPEG and PNG, and fail with
      "Invalid file type" for any other type. */
  function FileFilter(mimeType: string): (r: Result<bool, string>)
    ensures r.Ok? <==> mimeType == "application/pdf" || mimeType == "image/jpeg" || mimeType == "image/png"
    ensures r.Ok? ==> r.value
    ensures r.Err? ==> r.error == InvalidFileType
  {
    if mimeType in AllowedTypes then Ok(true) else Err(InvalidFileType)
  }

  /** The `filename` callback: the clock reading, a dash, the client's
      name. The name ends with the client's name, and before it comes a
      non-empty run of digits and one dash. */
  function Filename(receivedAt: nat, originalName: string): (r: string)
    ensures var cut := |r| - |originalName| - 1;
      && 0 < cut && r[cut + 1..] == originalName && r[cut] == '-' && AllDigits(r[..cut])
  {
    NatToStringFacts(receivedAt);
    var d := IntToString(receivedAt);
    assert (d + "-" + originalName)[..|d|] == d;
    d + "-" + originalName
  }

  /** `path.join(destination, filename)`, which for a base name is the
      directory followed by the name. */
  function StoredPath(filename: string): string {
    Destination + filename
  }

  /** Where and under which name an accepted part is written. */
  function Save(p: Part): SavedFile {
    var name := Filename(p.receivedAt, p.originalName);
    SavedFile(p.originalName, p.mimeType, name, StoredPath(name))
  }

  /** multer ignores a file part that has no file name. */
  predicate Named(p: Part) {
    p.originalName != []
  }

  /** The parts multer hands to the storage, in arrival order: exactly the
      named parts of the request. */
  function NamedParts(parts: seq<Part>): (r: seq<Part>)
    ensures |r| <= |parts|
    ensures forall q :: q in r <==> q in parts && Named(q)
  {
    if parts == [] then []
    else if Named(parts[0]) then [parts[0]] + NamedParts(parts[1..])
    else NamedParts(parts[1..])
  }

  /** Dropping the unnamed parts keeps the order of the rest: the named
      parts of two consecutive stretches of the request are those of the
      first followed by those of the second. */
  lemma {:induction false} NamedPartsAppend(a: seq<Part>, b: seq<Part>)
    ensures NamedParts(a + b) == NamedParts(a) + NamedParts(b)
    decreases |a|
  {
    if a == [] {
      assert a + b == b;
    } else {
      assert (a + b)[0] == a[0] && (a + b)[1..] == a[1..] + b;
      NamedPartsAppend(a[1..], b);
    }
  }

  /** A named part the middleware takes: the right field and an allowed
      content type. */
  predicate Admitted(p: Part) {
    p.field == DocumentsField && p.mimeType in AllowedTypes
  }

  /** `upload.array("documents", 5)` after `left` files have still room:
      parts are handled in arrival order and the first refusal aborts. No
      more than `left` files are written, and a refusal carries one of the
      two messages. */
  function ReceiveFrom(parts: seq<Part>, left: nat): (r: Result<seq<SavedFile>, string>)
    ensures r.Ok? ==> |r.value| <= left
    ensures r.Err? ==> r.error == UnexpectedField || r.error == InvalidFileType
    decreases |parts|
  {
    if parts == [] then Ok([])
    else
      var p := parts[0];
      if !Named(p) then ReceiveFrom(parts[1..], left)
      else if p.field != DocumentsField || left == 0 then Err(UnexpectedField)
      else
        match FileFilter(p.mimeType)
        case Err(e) => Err(e)
        case Ok(_) =>
          match ReceiveFrom(parts[1..], left - 1)
          case Err(e) => Err(e)
          case Ok(rest) => Ok([Save(p)] + rest)
  }

  /** `upload.array("documents", 5)`. On a refusal multer removes the files
      it had already written, so an `Err` leaves nothing on disk. */
  function Receive(parts: seq<Part>): Result<seq<SavedFile>, string> {
    ReceiveFrom(parts, MaxFiles)
  }

  /** The files written for the given parts, in order. */
  function SaveAll(parts: seq<Part>): (r: seq<SavedFile>)
    ensures |r| == |parts|
  {
    if parts == [] then [] else [Save(parts[0])] + SaveAll(parts[1..])
  }

  /** The `i`-th written file is the `i`-th part's. */
  lemma {:induction false} SaveAllAt(parts: seq<Part>, i: nat)
    requires i < |parts|
    ensures SaveAll(parts)[i] == Save(parts[i])
    decreases |parts|
  {
    if i > 0 {
      SaveAllAt(parts[1..], i - 1);
    }
  }

  /** The middleware with room for `left` files accepts exactly when every
      named part is admitted and there are at most `left` of them; it then
      writes every named part in order, and otherwise fails with one of its
      two messages. */
  lemma {:induction false} ReceiveFromMeaning(parts: seq<Part>, left: nat)
    ensures var r := ReceiveFrom(parts, left);
      var named := NamedParts(parts);
      && (r.Ok? <==> |named| <= left && forall q :: q in named ==> Admitted(q))
      && (r.Ok? ==> r.value == SaveAll(named))
      && (r.Err? ==> r.error == UnexpectedField || r.error == InvalidFileType)
    decreases |parts|
  {
    if parts != [] {
      var p := parts[0];
      var tail := parts[1..];
      if !Named(p) {
        ReceiveFromMeaning(tail, left);
      } else {
        var rest := NamedParts(tail);
        assert NamedParts(parts) == [p] + rest;
        if Admitted(p) && left > 0 {
          ReceiveFromMeaning(tail, left - 1);
          assert forall q :: q in [p] + rest <==> q == p || q in rest;
          assert SaveAll([p] + rest)[1..] == SaveAll(rest) by {
            assert ([p] + rest)[1..] == rest;
          }
        } else {
          assert p in [p] + rest;
        }
      }
    }
  }

  /** The request's files are accepted exactly when every named part comes
      under the "documents" field with a PDF, JPEG or PNG type and there are
      at most five of them; the accepted files are then the named parts, in
      order, each written under `uploads/`. Any other request fails with
      "Unexpected field" or "Invalid file type". */
  lemma ReceiveMeaning(parts: seq<Part>)
    ensures var r := Receive(parts);
      var named := NamedParts(parts);
      && (r.Ok? <==> |named| <= MaxFiles && forall q :: q in named ==> Admitted(q))
      && (r.Ok? ==> |r.value| == |named| <= MaxFiles)
      && (r.Ok? ==> forall i :: 0 <= i < |r.value| ==> r.value[i] == Save(named[i]))
      && (r.Err? ==> r.error == UnexpectedField || r.error == InvalidFileType)
  {
    ReceiveFromMeaning(parts, MaxFiles);
    var named := NamedParts(parts);
    forall i | 0 <= i < |named| ensures SaveAll(named)[i] == Save(named[i]) {
      SaveAllAt(named, i);
    }
  }

  /** A single file with a type outside the allow-list is refused with
      "Invalid file type", and one with an allowed type is written. */
  lemma SingleFile(p: Part)
    requires Named(p) && p.field == DocumentsField
    ensures Receive([p]) == (if p.mimeType in AllowedTypes then Ok([Save(p)]) else Err(InvalidFileType))
  {
    assert [p][1..] == [];
    var r := ReceiveFrom([p], MaxFiles);
    if p.mimeType in AllowedTypes {
      assert r == match ReceiveFrom([], MaxFiles - 1) { case Err(e) => Err(e) case Ok(rest) => Ok([Save(p)] + rest) };
      assert [Save(p)] + [] == [Save(p)];
    }
  }

  /** When every part is named and admitted, the middleware writes them all
      if they fit, and otherwise refuses the first one over the limit with
      "Unexpected field". */
  lemma {:induction false} ReceiveAdmitted(parts: seq<Part>, left: nat)
    requires forall i :: 0 <= i < |parts| ==> Named(parts[i]) && Admitted(parts[i])
    ensures ReceiveFrom(parts, left) == if |parts| <= left then Ok(SaveAll(parts)) else Err(UnexpectedField)
    decreases |parts|
  {
    if parts != [] {
      var tail := parts[1..];
      assert forall i :: 0 <= i < |tail| ==> tail[i] == parts[i + 1];
      assert Named(parts[0]) && Admitted(parts[0]);
      if left > 0 {
        ReceiveAdmitted(tail, left - 1);
      }
    }
  }

  /** A sixth file under "documents" is refused even when all six have an
      allowed type. */
  lemma SixthFileRefused(parts: seq<Part>)
    requires |parts| == MaxFiles + 1
    requires forall i :: 0 <= i < |parts| ==> Named(parts[i]) && Admitted(parts[i])
    ensures Receive(parts) == Err(UnexpectedField)
  {
    ReceiveAdmitted(parts, MaxFiles);
  }

  /** A stored file's path is the upload directory followed by its name,
      and the name ends with the client's file name after the clock reading
      and a dash. */
  lemma SavedFileShape(p: Part)
    ensures var f := Save(p);
      && f.path == Destination + f.filename
      && |f.filename| > |p.originalName|
      && f.filename[|f.filename| - |p.originalName|..] == p.originalName
      && f.filename[..|f.filename| - |p.originalName|] == IntToString(p.receivedAt) + "-"
  {
  }

  /** The clock reading and the client's file name can be read back from a
      stored name: the reading is the run of digits before the first dash. */
  lemma FilenameInjective(t1: nat, n1: string, t2: nat, n2: string)
    requires Filename(t1, n1) == Filename(t2, n2)
    ensures t1 == t2 && n1 == n2
  {
    var d1, d2 := IntToString(t1), IntToString(t2);
    NatToStringFacts(t1);
    NatToStringFacts(t2);
    var f := Filename(t1, n1);
    if |d1| < |d2| {
      assert false;
    } else if |d2| < |d1| {
      assert false;
    }
    assert d1 == f[..|d1|] == d2;
    assert n1 == f[|d1| + 1..] == n2;
    IntToStringInjective(t1, t2);
  }
}

=== FILE: upload_route.dfy ===
/** The `/upload-documents` handler that clientserver/src/models/user.ts
    declares: after authentication and the multer middleware, a landlord's
    uploaded file paths are appended to their account and the account is
    marked unverified pending manual review. The authentication middleware
    that route imports from `middleware/auth` is not part of this model; the
    handler receives the `req.user` it sets. */
module UploadRoute {
  import opened Base
  import opened Http
  import opened Users
  import opened UploadPolicy
  import opened AuthMiddleware

  const UserNotFound: string := "User not found"
  const LandlordsOnly: string := "Only landlords can upload documents"
  const DocumentsUploaded: string := "Documents uploaded"
  const UploadFailed: string := "Upload failed"

  /** The bodies: a message, or the message with the stored paths. A multer
      error reaches Express's default error handler, which answers 500 with
      an HTML page (the error's message and stack in development, only
      "Internal Server Error" in production); `Message(e)` stands for that
      page. */
  datatype Reply = Message(message: string) | Uploaded(message: string, files: seq<string>)

  /** The response, the user collection afterwards, and the files this
      request leaves in the upload directory. */
  datatype Outcome = Outcome(response: Response<Reply>, store: Store, written: seq<string>)

  /** `uploadedFiles.map((f) => f.path)`. */
  function Paths(files: seq<SavedFile>): seq<string> {
    seq(|files|, i requires 0 <= i < |files| => files[i].path)
  }

  /** The account after the upload: the new paths after the old ones, and
      not verified. */
  function WithDocuments(u: User, paths: seq<string>): User {
    u.(documents := u.documents + paths, isVerified := false)
  }

  /** `upload.array("documents", 5)` followed by the handler. `multipart`
      says whether the request is `multipart/form-data`: multer passes any
      other request on untouched, without `req.files`, so for a landlord
      `uploadedFiles.map` throws and the `catch` answers 500 "Upload
      failed". At most five files stay on disk, none after a 500; only a
      200 writes to the collection, and it reports exactly the files left
      on disk. */
  function UploadDocuments(user: Claims, multipart: bool, parts: seq<Part>, st: Store): (o: Outcome)
    ensures o.response.status in {ServerError, NotFound, Forbidden, OK}
    ensures |o.store.users| == |st.users| && o.store.nextId == st.nextId
    ensures o.response.status != OK ==> o.store == st
    ensures o.response.status == ServerError ==> o.written == []
    ensures !multipart ==> o.written == [] && o.response.status != OK
    ensures |o.written| <= MaxFiles
    ensures o.response.status == OK ==> o.response.body.Uploaded? && o.response.body.files == o.written
  {
    var received := if multipart then Receive(parts) else Ok([]);
    match received
    case Err(e) => Outcome(Response(ServerError, Message(e)), st, [])
    case Ok(files) =>
      var paths := Paths(files);
      match FindById(st.users, user.id)
      case None => Outcome(Response(NotFound, Message(UserNotFound)), st, paths)
      case Some(k) =>
        var u := st.users[k];
        if u.role != LandlordRole then Outcome(Response(Forbidden, Message(LandlordsOnly)), st, paths)
        else if !multipart then Outcome(Response(ServerError, Message(UploadFailed)), st, [])
        else Outcome(Response(OK, Uploaded(DocumentsUploaded, paths)), Replace(st, k, WithDocuments(u, paths)), paths)
  }

  /** The upload outcomes: 500 and nothing written when multer refuses the
      files; otherwise 404 when the token's id names no account and 403 when
      the account is not a landlord's, both with the store unchanged but the
      files left on disk; otherwise 500 "Upload failed" for a request that
      is not multipart, and 200 for one that is. */
  lemma UploadOutcomes(user: Claims, multipart: bool, parts: seq<Part>, st: Store)
    ensures var o := UploadDocuments(user, multipart, parts, st);
      var r := Receive(parts);
      var k := FindById(st.users, user.id);
      var landlord := k.Some? && st.users[k.value].role == LandlordRole;
      var passed := !multipart || r.Ok?;
      && (o.response.status == ServerError <==> (multipart && r.Err?) || (!multipart && landlord))
      && (o.response.status == ServerError ==> o.written == [] && o.store == st)
      && (!multipart && landlord ==> o.response == Response(ServerError, Message(UploadFailed)))
      && (o.response == Response(NotFound, Message(UserNotFound)) <==> passed && k.None?)
      && (o.response == Response(Forbidden, Message(LandlordsOnly)) <==>
            passed && k.Some? && st.users[k.value].role != LandlordRole)
      && (o.response.status == OK <==> multipart && r.Ok? && landlord)
      && (o.response.status != OK ==> o.store == st)
      && (multipart && r.Ok? && o.response.status != ServerError ==> o.written == Paths(r.value))
      && (!multipart ==> o.written == [])
  {
    ReceiveMeaning(parts);
  }

  /** A successful upload changes only the uploader's account: its
      documents become the old list followed by the new paths in order, it
      is no longer verified, and the answer lists exactly the new paths, one
      per accepted file, each under `uploads/`. */
  lemma UploadAppends(user: Claims, multipart: bool, parts: seq<Part>, st: Store)
    requires UploadDocuments(user, multipart, parts, st).response.status == OK
    ensures var o := UploadDocuments(user, multipart, parts, st);
      var k := FindById(st.users, user.id).value;
      var named := NamedParts(parts);
      && |o.store.users| == |st.users| && o.store.nextId == st.nextId
      && (forall j :: 0 <= j < |st.users| && j != k ==> o.store.users[j] == st.users[j])
      && o.store.users[k].id == user.id
      && o.store.users[k].documents == st.users[k].documents + o.response.body.files
      && !o.store.users[k].isVerified
      && o.store.users[k].(documents := st.users[k].documents, isVerified := st.users[k].isVerified) == st.users[k]
      && |o.response.body.files| == |named| <= MaxFiles
      && (forall i :: 0 <= i < |named| ==> o.response.body.files[i] == Save(named[i]).path)
      && (forall i :: 0 <= i < |named| ==> o.response.body.files[i][..|Destination|] == Destination)
  {
    ReceiveMeaning(parts);
  }

  /** An upload never grants verification: no account is verified after it
      that was not verified before. */
  lemma UploadNeverVerifies(user: Claims, multipart: bool, parts: seq<Part>, st: Store)
    ensures var st' := UploadDocuments(user, multipart, parts, st).store;
      && |st'.users| == |st.users|
      && forall j :: 0 <= j < |st.users| && st'.users[j].isVerified ==> st.users[j].isVerified
  {
  }

  /** Uploading keeps ids and emails unique. */
  lemma UploadPreservesValid(user: Claims, multipart: bool, parts: seq<Part>, st: Store)
    requires Valid(st)
    ensures Valid(UploadDocuments(user, multipart, parts, st).store)
  {
    var o := UploadDocuments(user, multipart, parts, st);
    if o.response.status == OK {
      var k := FindById(st.users, user.id).value;
      ReplacePreservesValid(st, k, WithDocuments(st.users[k], o.response.body.files));
    }
  }

  /** Two uploads by the same landlord keep both batches, the first one's
      paths before the second one's. */
  lemma UploadTwice(user: Claims, m1: bool, first: seq<Part>, m2: bool, second: seq<Part>, st: Store)
    requires UploadDocuments(user, m1, first, st).response.status == OK
    ensures var o1 := UploadDocuments(user, m1, first, st);
      var o2 := UploadDocuments(user, m2, second, o1.store);
      var k := FindById(st.users, user.id).value;
      o2.response.status == OK ==>
        o2.store.users[k].documents == st.users[k].documents + o1.response.body.files + o2.response.body.files
  {
    var o1 := UploadDocuments(user, m1, first, st);
    var k := FindById(st.users, user.id).value;
    UploadAppends(user, m1, first, st);
    var o2 := UploadDocuments(user, m2, second, o1.store);
    if o2.response.status == OK {
      var k2 := FindById(o1.store.users, user.id).value;
      assert k2 == k by {
        assert o1.store.users[k].id == user.id;
        assert forall j :: 0 <= j < |st.users| && j != k ==> o1.store.users[j].id == st.users[j].id;
      }
      UploadAppends(user, m2, second, o1.store);
    }
  }
}

=== FILE: users.dfy ===
/** The user accounts that the auth routes create and read and that the
    upload route updates. The Mongoose `User` model they import is not part
    of this model; the record below holds the fields the routes use. The
    collection is a sequence in insertion order. */
module Users {
  import opened Base

  /** The role an account gets when signup names none. */
  const UserRole: string := "user"

  /** A stored account. `passwordHash` is what the model's save hook
      produced from the plaintext; `documents` are the uploaded file paths;
      `isVerified` is set only by manual review outside the server. */
  datatype User = User(
    id: nat,
    name: string,
    email: string,
    passwordHash: string,
    role: string,
    documents: seq<string>,
    isVerified: bool)

  /** The user collection and the next fresh `_id`. */
  datatype Store = Store(users: seq<User>, nextId: nat)

  /** No two accounts share an email. */
  predicate UniqueEmails(users: seq<User>) {
    forall i, j :: 0 <= i < j < |users| ==> users[i].email != users[j].email
  }

  /** Emails and ids are unique, and every id is below `nextId`. */
  predicate Valid(st: Store) {
    && UniqueEmails(st.users)
    && (forall i, j :: 0 <= i < j < |st.users| ==> st.users[i].id != st.users[j].id)
    && (forall i :: 0 <= i < |st.users| ==> st.users[i].id < st.nextId)
  }

  /** The position of the first account satisfying `p`, as `findOne` and
      `findById` return the first match in collection order. */
  function FirstWhere(users: seq<User>, p: User -> bool): (r: Option<nat>)
    ensures r.Some? ==> r.value < |users| && p(users[r.value])
    ensures r.Some? ==> forall j :: 0 <= j < r.value ==> !p(users[j])
    ensures r.None? <==> forall j :: 0 <= j < |users| ==> !p(users[j])
  {
    if users == [] then None
    else if p(users[0]) then Some(0)
    else
      match FirstWhere(users[1..], p)
      case None => None
      case Some(k) => Some(k + 1)
  }

  /** `User.findOne({ email })`. */
  function FindByEmail(users: seq<User>, email: string): Option<nat> {
    FirstWhere(users, (u: User) => u.email == email)
  }

  /** `User.findById(id)`. */
  function FindById(users: seq<User>, id: nat): Option<nat> {
    FirstWhere(users, (u: User) => u.id == id)
  }

  /** `User.create(...)`: the new account gets the next id and is appended. */
  function Add(st: Store, name: string, email: string, passwordHash: string, role: string): Store {
    Store(st.users + [User(st.nextId, name, email, passwordHash, role, [], false)], st.nextId + 1)
  }

  /** `user.save()` of the account at position `k` after changing it. */
  function Replace(st: Store, k: nat, u: User): Store
    requires k < |st.users|
  {
    Store(st.users[k := u], st.nextId)
  }

  /** In a valid store an email names at most one account, so the lookup
      finds exactly the account that holds it. */
  lemma FindUniqueEmail(st: Store, k: nat)
    requires Valid(st) && k < |st.users|
    ensures FindByEmail(st.users, st.users[k].email) == Some(k)
  {
    var r := FindByEmail(st.users, st.users[k].email);
    assert r.Some?;
  }

  /** In a valid store an id names at most one account. */
  lemma FindUniqueId(st: Store, k: nat)
    requires Valid(st) && k < |st.users|
    ensures FindById(st.users, st.users[k].id) == Some(k)
  {
    var r := FindById(st.users, st.users[k].id);
    assert r.Some?;
  }

  /** Adding an account whose email is not yet taken keeps the store valid;
      the new account is the last one and carries the fresh id. */
  lemma AddPreservesValid(st: Store, name: string, email: string, passwordHash: string, role: string)
    requires Valid(st) && FindByEmail(st.users, email).None?
    ensures Valid(Add(st, name, email, passwordHash, role))
    ensures FindByEmail(Add(st, name, email, passwordHash, role).users, email) == Some(|st.users|)
  {
    var st' := Add(st, name, email, passwordHash, role);
    assert forall j :: 0 <= j < |st.users| ==> st'.users[j] == st.users[j];
    var r := FindByEmail(st'.users, email);
    assert st'.users[|st.users|].email == email;
    if r.value < |st.users| {
      assert false;
    }
  }

  /** Replacing an account by one with the same id and email keeps the
      store valid. */
  lemma ReplacePreservesValid(st: Store, k: nat, u: User)
    requires Valid(st) && k < |st.users|
    requires u.id == st.users[k].id && u.email == st.users[k].email
    ensures Valid(Replace(st, k, u))
  {
  }
}
